=== FILE: README.md ===
# Task scorer model

A Dafny model of the scoring engine of the task-analyzer backend: the
`TaskScorer` class. For each task it computes four component scores on a
0-100 scale:

- urgency, from the days until the due date;
- importance, from a 1-10 rating;
- effort, from the estimated hours;
- dependencies, from how many tasks list this task as a dependency.

A strategy's weights combine the four into a priority score, and each score
comes with a human-readable explanation. The scorer also does three
list-level jobs:

- it detects circular dependencies with a depth-first search;
- it scores a whole task list and sorts it, highest priority first;
- it returns the top N tasks as ranked suggestions.

Modules:

| file | module | models |
|---|---|---|
| `wrappers.dfy` | `Wrappers` | `Option` and `Result` |
| `float_ops.dfy` | `FloatOps` | `x ** 1.5`, `math.log(x, 2)` and `round(x, 2)` as parameters, with the facts the scorer relies on |
| `text.dfy` | `Text` | decimal rendering of a number (an f-string of an int), `str.join`, and `str.find` and `str.split` as the partners that read a joined string back (`Find`, `Split`, `SplitJoin`) |
| `task_model.dfy` | `TaskModel` | a task dictionary: id, title, due date as days from today, hours, importance, dependencies |
| `component_scores.dfy` | `ComponentScores` | the four `calculate_*_score` methods |
| `strategies.dfy` | `Strategies` | `_get_weights`, the strategy table and the weighted total |
| `explanation.dfy` | `Explanation` | `_generate_explanation` |
| `cycle_detection.dfy` | `CycleDetection` | `detect_circular_dependencies`, both as written and with the recursion stack unwound |
| `cycle_completeness.dfy` | `CycleCompleteness` | the unwound search finds a cycle whenever the graph has one |
| `cycle_scenarios.dfy` | `CycleScenarios` | the search traced on three-task lists: a ring, a chain, and the list that makes the code as written raise |
| `score_scenarios.dfy` | `ScoreScenarios` | `score_tasks` and `get_top_suggestions` as written on the list that makes the detector raise |
| `stable_sort.dfy` | `StableSort` | the stable, descending sort that `list.sort(key=..., reverse=True)` performs |
| `task_scorer.dfy` | `TaskScorer` | `calculate_score`, `score_tasks` and `get_top_suggestions` |

Where the code's docstrings and its statements disagree, the model follows
the statements:

- The blocking count counts every task in the list whose dependencies
  contain the id, the task itself included. The docstring at
  `backend/tasks/scoring.py:134-135` speaks of "how many tasks depend on
  this one" and of tasks that "block others".
- The urgency docstring promises 40-60 for days 8-14. The code gives 39
  at 14 days (`UrgencyBands`).
- The detector's docstring (`backend/tasks/scoring.py:160`) promises the
  ids of the tasks involved in circular dependencies. `has_cycle` returns
  at the first dependency that reports a cycle (`scoring.py:181-184`), so a
  task's later dependencies are never searched and a task on a cycle can
  go unreported: on 1→2, 2→3 then 1, 3→2 the result is {2, 3} although 1
  lies on the cycle 1→2→1 (`CycleScenarios.MissedKey`).

Other behaviour of the code that the model keeps:

- Urgency for days 1-3 lies in 81-87, so the first two bands do not meet
  at 3 days: the score steps from 81 at 3 days to 75 at 4, where the 4-7
  day formula would give 80 at 3 days.
- Effort falls strictly only until it reaches its floor of 10, at about 31
  hours. The same holds for urgency beyond about a month.
- The effort bands meet exactly: 95 at one hour, 80 at three, 50 at eight
  and 30 at sixteen (`EffortBands`).

- The detector keys a task by `task.get('id') or i`. An id of 0 gives way
  to the task's position, as a missing id does.
- The detector's dictionary keeps a repeated key at its first position but
  takes the dependencies of the last task with that key.
- `score_tasks` assigns the position as id only when the `id` key is
  absent. Its warning flag tests the task's own id, not its detector key,
  so the two can differ for an id of 0 at a non-zero position.
- The sort key is the rounded score. Two tasks whose totals round to the
  same value keep their input order.

## Model

| member | source | states |
|---|---|---|
| Strategies.StrategyTable | backend/tasks/scoring.py:42-47 | the table has an entry for exactly the four strategy names, and each entry is non-negative and sums to 1 |
| Strategies.WeightedTotal | backend/tasks/scoring.py:218-223 | the priority before rounding, each component times its weight; its range under built-in weights is stated by Strategies.BuiltInTotalBetweenComponents |
| Strategies.GetWeights | backend/tasks/scoring.py:37-49 | non-empty custom weights are used as given; otherwise the weights are the strategy's table entry, or the default weights for an unknown name, and are non-negative and sum to 1 |
| Strategies.BuiltInWeightsConvex | backend/tasks/scoring.py:19-49 | the built-in weight vectors are exactly the table's entries (`smart_balance` equals the default), and each is non-negative and sums to 1 |
| Strategies.BuiltInTotalBetweenComponents | backend/tasks/scoring.py:218-223 | under built-in weights the weighted total lies between the smallest and the largest component score |
| Strategies.BuiltInTotalNear | backend/tasks/scoring.py:218-237 | under built-in weights, moving every component by at most eps moves the total by at most eps |
| TaskScorer.NewScorer | backend/tasks/scoring.py:26-35 | the scorer keeps its strategy name; its weights are the custom weights when given, and otherwise a built-in vector that is non-negative and sums to 1 |
| ComponentScores.UrgencyScore | backend/tasks/scoring.py:51-93 | urgency lies in 10..100; it is 50 without a usable date, 100 when overdue, 95 on the due day, and at most 19 beyond 30 days |
| ComponentScores.UrgencyNonIncreasing | backend/tasks/scoring.py:75-90 | a later due date never raises urgency; it lowers it strictly unless both dates are overdue or the score is at its floor of 10 |
| ComponentScores.UrgencyBands | backend/tasks/scoring.py:80-90 | the score range of each band: 81-87 for 1-3 days, 60-75 for 4-7, 39-57 for 8-14, 20-38.75 for 15-30, and 10 up to but not including 20 beyond |
| ComponentScores.ImportanceScore | backend/tasks/scoring.py:95-104 | importance lies in 0..100; a rating that is not a number or lies outside 1..10 scores 50, and 10 scores 100 |
| ComponentScores.ImportanceIncreasing | backend/tasks/scoring.py:103-104 | on ratings 1..10 a higher rating scores strictly more |
| ComponentScores.ImportanceLowRatings | backend/tasks/scoring.py:103-104 | a rating of 3 or less scores at most 20 |
| ComponentScores.EffortScore | backend/tasks/scoring.py:106-130 | effort lies in 10..100; hours that are not a number or not positive score 50, under an hour scores between 95 and 100, and over 16 hours scores under 30; the ranges of the bands between are in `ComponentScores.EffortBands` |
| ComponentScores.EffortBands | backend/tasks/scoring.py:106-127 | the score range of each band: 80-95 for 1-3 hours, 50-80 for 3-8 and 30-50 for 8-16, with the bands meeting at 95, 80, 50 and 30 |
| ComponentScores.EffortNonIncreasing | backend/tasks/scoring.py:120-130 | more hours never raise the effort score; they lower it strictly unless the score is at its floor of 10 |
| ComponentScores.EffortSlopes | backend/tasks/scoring.py:120-127 | up to 16 hours the score falls by 2.5 to 7.5 points per hour, so the bands join without a jump |
| ComponentScores.BlockingCount | backend/tasks/scoring.py:139-144 | the count is the number of positions in the list whose task lists the id as a dependency |
| ComponentScores.DependencyScoreOfCount | backend/tasks/scoring.py:146-155 | the score lies in 30..100 and exceeds 60 exactly when at least two tasks are blocked; no blocked task scores 30, one 60, two 80, three 90, and four or more 100 |
| ComponentScores.DependencyScore | backend/tasks/scoring.py:132-155 | the score lies in 30..100, and it exceeds 60 exactly when at least two positions of the list, the task's own included, name the id |
| ComponentScores.DependencyScoreMonotone | backend/tasks/scoring.py:146-155 | blocking more tasks never lowers the score |
| ComponentScores.BlockedByNone | backend/tasks/scoring.py:139-148 | the score is the base 30 exactly when no task in the list, the task itself included, lists the id |
| CycleDetection.NodeKey | backend/tasks/scoring.py:163 | a task's dictionary key is its id, or its position when the id is absent or 0; CycleDetection.BuildGraphKeys shows the dictionary's keys are exactly these |
| CycleDetection.BuildGraph | backend/tasks/scoring.py:163 | the dictionary's keys are distinct and are exactly the keys with an entry |
| CycleDetection.BuildGraphKeys | backend/tasks/scoring.py:163 | the dictionary has one key per task key (`id or position`) and no other |
| CycleDetection.BuildGraphLastWins | backend/tasks/scoring.py:163 | a key maps to the dependencies of the last task carrying it |
| CycleDetection.Visit | backend/tasks/scoring.py:168-187 | a search that does not raise only adds to the visited set, and only keys or dependencies named in the task list |
| CycleDetection.VisitClean | backend/tasks/scoring.py:168-187 | while the stack holds exactly the current path, a search never raises, and unless a cycle is found it leaves the stack as it was |
| CycleDetection.VisitSound | backend/tasks/scoring.py:168-187 | every key the search adds to the cycle set lies on a closed walk of the dependency graph, and after a search that reports a cycle the cycle set is non-empty |
| CycleDetection.VisitMirror | backend/tasks/scoring.py:183-186 | whenever the search as written does not raise, the search that unwinds its stack returns the same answer with the same visited and cycle sets |
| CycleDetection.VisitDeps | backend/tasks/scoring.py:180-185 | the loop over a key's dependencies, searching each in turn and returning as soon as one reports a cycle; a run that does not raise only adds to the visited set |
| CycleDetection.Roots | backend/tasks/scoring.py:189-191 | the loop over the dictionary keys in insertion order, searching from each unvisited key; its outcomes are stated by CycleDetection.RootsClean, RootsSound, RootsMirror and CycleCompleteness.RootsFinish |
| CycleDetection.Detect | backend/tasks/scoring.py:189-193 | the detector's result, the error of a search that raised or the collected cycle set; stated through CycleDetection.CycleSet and DetectCircularDependencies |
| CycleDetection.RootsClean | backend/tasks/scoring.py:189-191 | with the stack unwound, the loop over the keys never raises |
| CycleDetection.RootsSound | backend/tasks/scoring.py:189-191 | after the loop over the keys, every key in the cycle set lies on a cycle |
| CycleDetection.RootsMirror | backend/tasks/scoring.py:189-191 | whenever the loop as written does not raise, it collects the same cycle set as the unwinding one |
| CycleDetection.RootsAcyclic | backend/tasks/scoring.py:189-193 | on an acyclic graph the loop as written never raises and collects nothing |
| CycleDetection.NothingOnCycle | backend/tasks/scoring.py:157-162 | a set of keys that all lie on cycles is empty when the graph is acyclic |
| CycleDetection.CycleKeys | backend/tasks/scoring.py:157-162 | a key on a cycle is a key of the task dictionary |
| CycleDetection.CycleSet | backend/tasks/scoring.py:157-193 | the detector with its stack unwound returns only task keys; it need not return every key on a cycle (`CycleScenarios.MissedKey`) |
| CycleDetection.CycleSetOnCycles | backend/tasks/scoring.py:157-193 | every key of the cycle set lies on a cycle, so an acyclic list yields none |
| CycleDetection.DetectCircularDependencies | backend/tasks/scoring.py:157-193 | the detector as written either raises or returns exactly the cycle set, and on an acyclic list it returns the empty set |
| CycleDetection.AcyclicNeverRaises | backend/tasks/scoring.py:157-193 | on an acyclic graph the search as written returns the empty set |
| CycleCompleteness.VisitFinishes | backend/tasks/scoring.py:168-187 | a search that adds nothing to the cycle set reports no cycle, restores the stack and leaves its key finished after all the keys it depends on |
| CycleCompleteness.VisitDepsFinish | backend/tasks/scoring.py:180-185 | the loop over a key's dependencies, when it adds nothing to the cycle set, leaves every dependency finished |
| CycleCompleteness.RootsFinish | backend/tasks/scoring.py:189-191 | a loop over the keys that adds nothing to the cycle set visits every key and finishes each after its dependencies |
| CycleCompleteness.FinishedAcyclic | backend/tasks/scoring.py:157-162 | a graph whose keys can be ordered with every dependency before its dependents has no cycle |
| CycleCompleteness.CycleSetComplete | backend/tasks/scoring.py:157-193 | an empty cycle set means the dependency graph has no cycle |
| CycleCompleteness.NoCycleIffAcyclic | backend/tasks/scoring.py:157-193 | the cycle set is empty exactly when the graph is acyclic, and the detector as written returns the empty set exactly then |
| CycleScenarios.StaleStackRaises | backend/tasks/scoring.py:168-186 | on the list 1→2, 2→1, 3→1 the detector as written raises at key 1, while the cycle set is {1, 2} |
| CycleScenarios.RingDetected | backend/tasks/tests.py:114-129 | on the ring 1→2→3→1 the detector returns {1, 2, 3} |
| CycleScenarios.MissedKey | backend/tasks/scoring.py:157-193 | on 1→2, 2→3 then 1, 3→2 both detectors return {2, 3}, although key 1 lies on the cycle 1→2→1 |
| CycleScenarios.ChainClean | backend/tasks/tests.py:131-144 | on the chain 3→2→1 the detector returns the empty set |
| Explanation.Reasons | backend/tasks/scoring.py:245-279 | the reason list is never empty and holds no empty phrase; it is exactly ["Balanced priority"] when no component earns a reason |
| Explanation.ReasonsListed | backend/tasks/scoring.py:248-276 | each phrase is among the reasons exactly when its condition holds: urgency above 80 or 60, importance above 75, effort above 80, effort below 30 outside `fastest_wins`, dependencies above 60 |
| Explanation.UrgentPhrase | backend/tasks/scoring.py:249-263 | the urgency phrase from the days until the due date, "High urgency" without a usable date; Explanation.PhrasesDistinct shows it differs from every other phrase |
| Explanation.Explain | backend/tasks/scoring.py:241-281 | the explanation is never empty, and it is "Balanced priority" exactly when no component earns a reason; Explanation.ExplainFields states which phrases it carries |
| Explanation.PhrasesDistinct | backend/tasks/scoring.py:248-279 | the six phrases and "Balanced priority" differ from one another, whatever the day count |
| Explanation.PhrasesUnbulleted | backend/tasks/scoring.py:248-279 | no reason phrase contains the bullet of the " • " separator |
| Explanation.ExplainSplit | backend/tasks/scoring.py:281 | splitting the explanation on " • " gives back exactly the list of reasons |
| Explanation.ExplainFields | backend/tasks/scoring.py:245-281 | each phrase is a " • "-separated field of the explanation exactly when its condition holds, so, for instance, "High effort task" never appears under `fastest_wins`; "Balanced priority" is a field exactly when no component earns a reason |
| Explanation.BalancedAlone | backend/tasks/scoring.py:278-279 | "Balanced priority" is among the reasons exactly when no component earns one |
| Text.NatToString | backend/tasks/scoring.py:257-261 | the decimal rendering of a day count is non-empty, all digits, and has no leading zero |
| Text.NatToStringRoundTrip | backend/tasks/scoring.py:257-261 | the decimal rendering of a number reads back as that number |
| Text.Join | backend/tasks/scoring.py:281 | `sep.join(parts)`: the parts with one separator between each two; Text.SplitJoin is its inverse |
| Text.Find | backend/tasks/scoring.py:281 | the position found is an occurrence of the separator, and no occurrence lies before it; no position is found only when there is no occurrence |
| Text.SplitJoin | backend/tasks/scoring.py:281 | splitting a joined string on its separator gives back the parts, when no part contains the separator's marking character |
| Text.JoinStartsWithFirst | backend/tasks/scoring.py:281 | the joined string starts with its first part |
| TaskScorer.Components | backend/tasks/scoring.py:209-215 | the component ranges; the fallbacks 50 for no usable date or a non-numeric value, and 95 effort for missing hours; the dependency component exceeds 30 exactly when some listed task names the id |
| TaskScorer.CalculateScore | backend/tasks/scoring.py:195-239 | the reported components keep their ranges and fallbacks; under built-in weights the total lies in 0..100; scored alone, a task earns more than 30 dependency points exactly when it lists itself; the explanation is non-empty and is "Balanced priority" exactly when no unrounded component earns a reason |
| TaskScorer.ScoreNearTotal | backend/tasks/scoring.py:217-237 | the total and the components are the unrounded values to within 0.005; under built-in weights the total is the weighted sum of the reported components to within 0.01 |
| TaskScorer.AssignIds | backend/tasks/scoring.py:293-296 | a task without an id takes its position; an existing id and every other field are kept |
| TaskScorer.ScoreOne | backend/tasks/scoring.py:303-316 | an entry carries the task unchanged, its score, components and explanation against the whole list, and a warning exactly when its id is in the cycle set |
| TaskScorer.ScoreList | backend/tasks/scoring.py:301-316 | every task is scored in input order, each with the score, components and explanation it earns against the whole list, and flagged when its id is in the cycle set |
| TaskScorer.ScoreAll | backend/tasks/scoring.py:293-316 | the same, after ids are assigned, with the cycle set of the list with assigned ids |
| TaskScorer.ScoreTasks | backend/tasks/scoring.py:283-321 | the result has the scored entries' elements, is ordered by priority highest first, and keeps tasks of equal priority in input order |
| TaskScorer.ScoreTasksEntry | backend/tasks/scoring.py:293-321 | each entry of the sorted result is one of the tasks, with the score, components and explanation `calculate_score` gives it against the whole list, flagged exactly when its id is in the cycle set |
| TaskScorer.ScoreTasksAsWritten | backend/tasks/scoring.py:283-321 | `score_tasks` as written fails exactly when the detector as written raises, and otherwise returns the list of TaskScorer.ScoreTasks |
| ScoreScenarios.ScoreTasksRaises | backend/tasks/scoring.py:297-335 | on the list 1→2, 2→1, 3→1 `score_tasks` and `get_top_suggestions` as written fail with the detector's error at key 1 |
| StableSort.SortDesc | backend/tasks/scoring.py:318-319 | the sort returns a permutation of its input, ordered by key highest first, with elements of equal key in their input order |
| StableSort.StableSortUnique | backend/tasks/scoring.py:318-319 | two orderings that are both sorted and both keep equal keys in input order are the same sequence |
| TaskScorer.TwoTasksOrder | backend/tasks/scoring.py:318-319 | of two tasks, the strictly higher-scoring one comes first, and on a tie the input order is kept |
| TaskScorer.SliceLength | backend/tasks/scoring.py:335 | `[:count]` keeps min(count, n) entries for a non-negative count and max(0, n + count) for a negative one |
| TaskScorer.Number | backend/tasks/scoring.py:338-340 | the entries are kept in order, ranked consecutively from the first rank, each with its rank reason |
| TaskScorer.Top | backend/tasks/scoring.py:335-340 | the first `count` entries are kept in order, ranked from 1 |
| TaskScorer.GetTopSuggestions | backend/tasks/scoring.py:323-342 | the suggestions are the first `count` entries of the sorted list, ranked 1, 2, … in order, each with the reason "Rank #n: " followed by its explanation |
| TaskScorer.GetTopSuggestionsAsWritten | backend/tasks/scoring.py:323-342 | `get_top_suggestions` as written fails exactly when `score_tasks` as written does, and otherwise returns the suggestions of TaskScorer.GetTopSuggestions |
| TaskScorer.SuggestionExplained | backend/tasks/scoring.py:309-340 | each suggestion's reason is "Rank #n: " followed by the explanation `calculate_score` gives its task against the whole list |
| TaskScorer.RankReason | backend/tasks/scoring.py:340 | the rank reason "Rank #n: " followed by the explanation; TaskScorer.RankReasonRoundTrip reads it back |
| TaskScorer.SuggestionsDominate | backend/tasks/scoring.py:334-335 | no task left out of the suggestions scores higher than one included |
| TaskScorer.RankReasonRoundTrip | backend/tasks/scoring.py:340 | the rank reason reads back as "Rank #", the rank's digits, ": " and the explanation |
| TaskScorer.FastestWinsPrefersQuickTask | backend/tasks/tests.py:212-239 | under `fastest_wins`, a task under an hour scores higher than one over 16 hours with the same due date, whatever their importance and dependencies |
| TaskScorer.FastestWinsListsQuickFirst | backend/tasks/tests.py:212-239 | under `fastest_wins`, such a quick task is listed first in either input order |
| TaskScorer.HighImpactPrefersImportance | backend/tasks/tests.py:241-268 | under `high_impact`, a task rated 10 scores higher than one rated 3 or less, whatever their dates, effort and dependencies |
| TaskScorer.HighImpactListsImportantFirst | backend/tasks/tests.py:241-268 | under `high_impact`, such an important task is listed first in either input order |
| TaskScorer.DeadlineDrivenPrefersOverdue | backend/tasks/scoring.py:46 | under `deadline_driven`, an overdue task scores higher than one due in more than 30 days, whatever their importance, effort and dependencies |

## Left out

- Dates and the clock: the due date reaches the model as a whole number of days from today. A date that is missing, unparseable or not a date is `None`. Parsing and `date.today()` are not modelled. The source reads the clock twice, once for the urgency score and once for the explanation; the model assumes both reads give the same day, so a midnight falling between them is not modelled.
- Floating point: scores are exact reals. `x ** 1.5`, `math.log(x, 2)` and `round(x, 2)` are parameters. The model states only the facts the scorer relies on: x^1.5 squared is x^3, log2 is increasing with log2(1) = 0 and log2(2) = 1, and rounding is monotone, moves a value by at most 0.005 and leaves 0, 10, 30, 50, 95 and 100 unchanged.
- Python typing: a `bool` counts as a number in the source, and only numbers reach the model. An importance of `None` or a string is `Invalid`.
- Custom weights: a custom dictionary that lacks a component would raise `KeyError` in `calculate_score`. The model takes custom weights as a full `Weights` value. An empty dictionary is treated as no custom weights, as the source's truthiness test does.
- Strategies.GetWeights: the model says nothing about what custom weights mean beyond their being used as given. The source does not check them either.
- An `id` key that is present with value `None` is not modelled. `Task.id` is `None` only when the key is absent.
- In-place mutation: `score_tasks` writes ids into the caller's dictionaries, and `get_top_suggestions` writes `rank` and `suggestion_reason` into its results. The model returns new values instead.
- Python's recursion limit on deep dependency chains is not modelled.
- CycleDetection.CycleSet: does not contain every key on a cycle, because the search it models returns at the first dependency that reports a cycle (`scoring.py:181-184`). It promises only that its keys lie on cycles and that it is empty exactly when the graph is acyclic; `CycleScenarios.MissedKey` shows a key it misses.
- CycleDetection.DetectCircularDependencies: for the same reason it does not return every task id involved in a cycle, as the docstring says; it returns `CycleSet` when it does not raise.
- TaskScorer.ScoreTasks: it flags circular dependencies using the detector with its recursion stack unwound. On lists such as 1→2, 2→1, 3→1 the source instead lets the `ValueError` from `path.index` escape (see Findings). TaskScorer.ScoreTasksAsWritten models that behaviour.
- TaskScorer.ScoreAll: it uses the same unwound detector, so it scores lists on which the detector call of `score_tasks` raises.
- TaskScorer.GetTopSuggestions: it builds on TaskScorer.ScoreTasks and so returns suggestions where the source raises; TaskScorer.GetTopSuggestionsAsWritten models the raising version.
- Default arguments: the strategy name defaults to `'smart_balance'` and the suggestion count to 3. The model always takes both explicitly.
- The result dictionaries' other keys (`**task`) are the `task` field of a `ScoredTask`. The warning text is the boolean `warning`.
- The HTTP views, serializers, the `Task` database model, URL routing and the WSGI entry point are not part of this model.

## Findings

| source | as written | input that shows it | evidently intended | confidence | as-written member | corrected member |
|---|---|---|---|---|---|---|
| backend/tasks/scoring.py:183-186 | `has_cycle` returns `True` as soon as a dependency reports a cycle, skipping `rec_stack.remove`. The key stays on the recursion stack, and a later search that reaches it calls `path.index` on a path without it, which raises `ValueError` | tasks `{id 1, deps [2]}`, `{id 2, deps [1]}`, `{id 3, deps [1]}`: the search from 3 reaches key 1, which is still on the stack | every call takes its key off the stack before returning, so the detector never raises, returns only keys on cycles ({1, 2} here), and returns the empty set exactly when the graph is acyclic | high; not executed | CycleScenarios.StaleStackRaises | CycleDetection.CycleSet |

=== FILE: component_scores.dfy ===
/**
 * The four component scores of a task (`calculate_urgency_score`,
 * `calculate_importance_score`, `calculate_effort_score`,
 * `calculate_dependency_score`), each on a 0-100 scale.
 */
module ComponentScores {
  import opened Wrappers
  import opened FloatOps
  import opened TaskModel

  /** The score every component falls back to on input it cannot use. */
  const DefaultScore: real := 50.0

  /** The four component scores of one task. */
  datatype Breakdown = Breakdown(urgency: real, importance: real, effort: real, dependencies: real)

  function Min(a: real, b: real): real { if a <= b then a else b }
  function Max(a: real, b: real): real { if a >= b then a else b }

  /**
   * Urgency from the number of days until the due date; `None` stands for a
   * missing or unparseable date. Overdue tasks saturate at 100.
   */
  function UrgencyScore(ops: Ops, due: Option<int>): (r: real)
    requires Sound(ops)
    ensures 10.0 <= r <= 100.0
    ensures due.None? ==> r == DefaultScore
    ensures due.Some? && due.value < 0 ==> r == 100.0
    ensures due == Some(0) ==> r == 95.0
    ensures due.Some? && due.value > 30 ==> r <= 19.0
  {
    match due
    case None => DefaultScore
    case Some(d) =>
      if d < 0 then Min(100.0, 100.0 + (-d) as real * 2.0)
      else if d == 0 then 95.0
      else if d <= 3 then 90.0 - d as real * 3.0
      else if d <= 7 then 80.0 - (d - 3) as real * 5.0
      else if d <= 14 then 60.0 - (d - 7) as real * 3.0
      else if d <= 30 then 40.0 - (d - 14) as real * 1.25
      else
        assert ops.log2(2.0) <= ops.log2((d - 29) as real) by {
          if d > 31 {
            LogIncreasing(ops, 2.0, (d - 29) as real);
          }
        }
        Max(10.0, 20.0 - ops.log2((d - 29) as real))
  }

  /**
   * Importance from a 1-10 rating, scaled by rating^1.5 / 10^1.5; `None`
   * stands for a value that is not a number.
   */
  function ImportanceScore(ops: Ops, rating: Option<real>): (r: real)
    requires Sound(ops)
    ensures 0.0 <= r <= 100.0
    ensures rating.None? || rating.value < 1.0 || rating.value > 10.0 ==> r == DefaultScore
    ensures rating == Some(10.0) ==> r == 100.0
  {
    if rating.None? || rating.value < 1.0 || rating.value > 10.0 then DefaultScore
    else
      var x := rating.value;
      PowTenPositive(ops);
      PowMonotone(ops, x, 10.0);
      DivAtMost(ops.pow15(x), ops.pow15(10.0), 1.0);
      assert x == 10.0 ==> ops.pow15(x) / ops.pow15(10.0) == 1.0;
      ops.pow15(x) / ops.pow15(10.0) * 100.0
  }

  /**
   * Effort from estimated hours: the less effort, the higher the score;
   * `None` stands for a value that is not a number.
   */
  function EffortScore(ops: Ops, hours: Option<real>): (r: real)
    requires Sound(ops)
    ensures 10.0 <= r <= 100.0
    ensures hours.None? || hours.value <= 0.0 ==> r == DefaultScore
    ensures hours.Some? && 0.0 < hours.value < 1.0 ==> 95.0 < r < 100.0
    ensures hours.Some? && hours.value > 16.0 ==> r < 30.0
  {
    match hours
    case None => DefaultScore
    case Some(h) =>
      if h <= 0.0 then DefaultScore
      else if h < 1.0 then 100.0 - h * 5.0
      else if h <= 3.0 then 95.0 - (h - 1.0) * 7.5
      else if h <= 8.0 then 80.0 - (h - 3.0) * 6.0
      else if h <= 16.0 then 50.0 - (h - 8.0) * 2.5
      else
        LogPositive(ops, h - 15.0);
        Max(10.0, 30.0 - ops.log2(h - 15.0) * 5.0)
  }

  /** Does `t` list `id` among its dependencies? A task without an id blocks nothing. */
  predicate Blocks(id: Option<int>, t: Task) {
    id.Some? && id.value in t.dependencies
  }

  /** The positions of the tasks that list `id` as a dependency. */
  ghost function BlockerIndices(id: Option<int>, all: seq<Task>): set<nat> {
    set i: nat | i < |all| && Blocks(id, all[i])
  }

  /** The blocking count of `calculate_dependency_score`'s loop. */
  function BlockingCount(id: Option<int>, all: seq<Task>): (b: nat)
    ensures b == |BlockerIndices(id, all)|
    ensures b <= |all|
    decreases |all|
  {
    if all == [] then 0
    else
      var n := |all| - 1;
      var prefix := BlockingCount(id, all[..n]);
      assert BlockerIndices(id, all) ==
        BlockerIndices(id, all[..n]) + (if Blocks(id, all[n]) then {n} else {});
      prefix + (if Blocks(id, all[n]) then 1 else 0)
  }

  /** The dependency score as a function of the blocking count. */
  function DependencyScoreOfCount(b: nat): (r: real)
    ensures 30.0 <= r <= 100.0
    ensures r > 60.0 <==> b >= 2
    ensures b == 0 ==> r == 30.0
    ensures b == 1 ==> r == 60.0
    ensures b == 2 ==> r == 80.0
    ensures b == 3 ==> r == 90.0
    ensures b >= 4 ==> r == 100.0
  {
    if b == 0 then 30.0
    else if b == 1 then 60.0
    else if b == 2 then 80.0
    else Min(100.0, 80.0 + (b - 2) as real * 10.0)
  }

  /**
   * `calculate_dependency_score`: the score of the number of positions in
   * the list whose task names the id, the task itself included.
   */
  function DependencyScore(id: Option<int>, all: seq<Task>): (r: real)
    ensures 30.0 <= r <= 100.0
    ensures r > 60.0 <==> |BlockerIndices(id, all)| >= 2
  {
    DependencyScoreOfCount(BlockingCount(id, all))
  }

  /**
   * Urgency never rises as the due date moves later, and it strictly falls
   * unless both dates are overdue (saturated at 100) or the score already
   * sits on its floor of 10.
   */
  lemma UrgencyNonIncreasing(ops: Ops, d1: int, d2: int)
    requires Sound(ops) && d1 < d2
    ensures UrgencyScore(ops, Some(d2)) <= UrgencyScore(ops, Some(d1))
    ensures UrgencyScore(ops, Some(d2)) < UrgencyScore(ops, Some(d1))
            || d2 < 0 || UrgencyScore(ops, Some(d1)) == 10.0
  {
    if d1 > 30 {
      LogIncreasing(ops, (d1 - 29) as real, (d2 - 29) as real);
    }
  }

  /** The score ranges of the urgency bands, in whole days. */
  lemma UrgencyBands(ops: Ops, d: int)
    requires Sound(ops)
    ensures 1 <= d <= 3 ==> 81.0 <= UrgencyScore(ops, Some(d)) <= 87.0
    ensures 4 <= d <= 7 ==> 60.0 <= UrgencyScore(ops, Some(d)) <= 75.0
    ensures 8 <= d <= 14 ==> 39.0 <= UrgencyScore(ops, Some(d)) <= 57.0
    ensures 15 <= d <= 30 ==> 20.0 <= UrgencyScore(ops, Some(d)) <= 38.75
    ensures d > 30 ==> 10.0 <= UrgencyScore(ops, Some(d)) < 20.0
  {
  }

  /** On the valid ratings 1..10 importance is strictly increasing. */
  lemma ImportanceIncreasing(ops: Ops, x: real, y: real)
    requires Sound(ops) && 1.0 <= x < y <= 10.0
    ensures ImportanceScore(ops, Some(x)) < ImportanceScore(ops, Some(y))
  {
    PowTenPositive(ops);
    PowIncreasing(ops, x, y);
    DivLess(ops.pow15(x), ops.pow15(y), ops.pow15(10.0));
  }

  /** A rating of 3 or less earns at most 20 importance points. */
  lemma ImportanceLowRatings(ops: Ops, x: real)
    requires Sound(ops) && 1.0 <= x <= 3.0
    ensures ImportanceScore(ops, Some(x)) <= 20.0
  {
    PowTenPositive(ops);
    PowMonotone(ops, x, 3.0);
    PowThreeSmall(ops);
    DivAtMost(ops.pow15(x), ops.pow15(10.0), 0.2);
  }

  /**
   * Effort never rises as the estimate grows, and it strictly falls unless
   * the score already sits on its floor of 10.
   */
  lemma EffortNonIncreasing(ops: Ops, h1: real, h2: real)
    requires Sound(ops) && 0.0 < h1 < h2
    ensures EffortScore(ops, Some(h2)) <= EffortScore(ops, Some(h1))
    ensures EffortScore(ops, Some(h2)) < EffortScore(ops, Some(h1))
            || EffortScore(ops, Some(h1)) == 10.0
  {
    if h1 > 16.0 {
      LogIncreasing(ops, h1 - 15.0, h2 - 15.0);
    }
  }

  /**
   * Up to 16 hours effort falls by between 2.5 and 7.5 points per hour, so
   * the bands join without a jump at 1, 3, 8 and 16 hours.
   */
  lemma EffortSlopes(ops: Ops, h1: real, h2: real)
    requires Sound(ops) && 0.0 < h1 <= h2 <= 16.0
    ensures 2.5 * (h2 - h1) <= EffortScore(ops, Some(h1)) - EffortScore(ops, Some(h2)) <= 7.5 * (h2 - h1)
  {
  }

  /**
   * The score ranges of the effort bands and the values where they meet:
   * 95 at one hour, 80 at three, 50 at eight and 30 at sixteen.
   */
  lemma EffortBands(ops: Ops, h: real)
    requires Sound(ops)
    ensures 1.0 <= h <= 3.0 ==> 80.0 <= EffortScore(ops, Some(h)) <= 95.0
    ensures 3.0 <= h <= 8.0 ==> 50.0 <= EffortScore(ops, Some(h)) <= 80.0
    ensures 8.0 <= h <= 16.0 ==> 30.0 <= EffortScore(ops, Some(h)) <= 50.0
    ensures EffortScore(ops, Some(1.0)) == 95.0 && EffortScore(ops, Some(3.0)) == 80.0
    ensures EffortScore(ops, Some(8.0)) == 50.0 && EffortScore(ops, Some(16.0)) == 30.0
  {
  }

  /** The dependency score never falls as the blocking count grows. */
  lemma DependencyScoreMonotone(b1: nat, b2: nat)
    requires b1 <= b2
    ensures DependencyScoreOfCount(b1) <= DependencyScoreOfCount(b2)
  {
  }

  /**
   * A task earns more than the base 30 points exactly when some task in the
   * list, possibly itself, names its id as a dependency.
   */
  lemma BlockedByNone(id: Option<int>, all: seq<Task>)
    ensures DependencyScore(id, all) == 30.0 <==> forall i :: 0 <= i < |all| ==> !Blocks(id, all[i])
  {
    if exists i :: 0 <= i < |all| && Blocks(id, all[i]) {
      var i :| 0 <= i < |all| && Blocks(id, all[i]);
      assert i in BlockerIndices(id, all);
    } else {
      assert BlockerIndices(id, all) == {};
    }
  }
}

=== FILE: cycle_completeness.dfy ===
/**
 * Completeness of the cycle search: when the search (with its recursion
 * stack unwound) reports no cycle, the dependency graph has none. The proof
 * follows the order in which calls return: while no cycle is found, every
 * dependency of a finished key finished before it, so a closed walk would
 * need a key to finish before itself.
 */
module CycleCompleteness {
  import opened Wrappers
  import opened TaskModel
  import opened CycleDetection

  /** Every dependency of the key at position `i` of `order` appears earlier in `order`. */
  ghost predicate DepsBefore(g: Graph, order: seq<int>, i: int)
    requires 0 <= i < |order|
  {
    order[i] in g.adj ==> forall d :: d in g.adj[order[i]] ==> d in order[..i]
  }

  /**
   * `order` lists the finished keys (visited and off the stack), each after
   * all of its dependencies.
   */
  ghost predicate Finished(g: Graph, st: State, order: seq<int>) {
    && Elems(order) == st.visited - st.onStack
    && forall i :: 0 <= i < |order| ==> DepsBefore(g, order, i)
  }

  /** The cycle set only grows during a search. */
  lemma VisitGrows(g: Graph, unwind: bool, t: int, path: seq<int>, st: State)
    requires t in Universe(g) && st.visited <= Universe(g)
    ensures var r := Visit(g, unwind, t, path, st);
      r.Success? ==> st.circular <= r.value.st.circular
    decreases |Universe(g) - st.visited|, 0, 0
  {
    if t !in st.onStack && t !in st.visited && t in g.adj {
      var st1 := st.(visited := st.visited + {t}, onStack := st.onStack + {t});
      AddOneShrinks(Universe(g), st.visited, t);
      DepsInUniverse(g, t);
      VisitDepsGrows(g, unwind, g.adj[t], 0, path + [t], st1);
    }
  }

  lemma VisitDepsGrows(g: Graph, unwind: bool, deps: seq<int>, i: nat, path: seq<int>, st: State)
    requires i <= |deps| && forall d :: d in deps ==> d in Universe(g)
    requires st.visited <= Universe(g)
    ensures var r := VisitDeps(g, unwind, deps, i, path, st);
      r.Success? ==> st.circular <= r.value.st.circular
    decreases |Universe(g) - st.visited|, 1, |deps| - i
  {
    if i < |deps| {
      VisitGrows(g, unwind, deps[i], path, st);
      var r := Visit(g, unwind, deps[i], path, st);
      if r.Success? && !r.value.found {
        GrowNoLarger(Universe(g), st.visited, r.value.st.visited);
        VisitDepsGrows(g, unwind, deps, i + 1, path, r.value.st);
      }
    }
  }

  lemma RootsGrows(g: Graph, unwind: bool, i: nat, st: State)
    requires WellFormed(g) && i <= |g.keys| && st.visited <= Universe(g)
    ensures Roots(g, unwind, i, st).Success? ==> st.circular <= Roots(g, unwind, i, st).value.circular
    decreases |g.keys| - i
  {
    if i < |g.keys| {
      KeysInUniverse(g, i);
      if g.keys[i] in st.visited {
        RootsGrows(g, unwind, i + 1, st);
      } else {
        VisitGrows(g, unwind, g.keys[i], [], st);
        var r := Visit(g, unwind, g.keys[i], [], st);
        if r.Success? {
          RootsGrows(g, unwind, i + 1, r.value.st);
        }
      }
    }
  }

  /** Extending `order` keeps the earlier positions' dependencies before them. */
  lemma ExtendFinished(g: Graph, order: seq<int>, t: int)
    requires forall i :: 0 <= i < |order| ==> DepsBefore(g, order, i)
    requires t in g.adj ==> forall d :: d in g.adj[t] ==> d in order
    ensures forall i :: 0 <= i < |order + [t]| ==> DepsBefore(g, order + [t], i)
  {
    var o := order + [t];
    forall i | 0 <= i < |o|
      ensures DepsBefore(g, o, i)
    {
      if i < |order| {
        assert o[..i] == order[..i] && o[i] == order[i];
        assert DepsBefore(g, order, i);
      } else {
        assert o[..i] == order;
      }
    }
  }

  /**
   * A search from `t` that leaves the cycle set empty found no cycle, left
   * the stack as it found it, and finished `t`.
   */
  lemma VisitFinishes(g: Graph, t: int, path: seq<int>, st: State, order: seq<int>) returns (order2: seq<int>)
    requires t in Universe(g) && st.visited <= Universe(g)
    requires st.onStack == Elems(path) && st.circular == {} && Finished(g, st, order)
    ensures var r := Visit(g, true, t, path, st);
      r.Success? && (r.value.st.circular == {} ==>
        && !r.value.found && r.value.st.onStack == st.onStack
        && Finished(g, r.value.st, order2) && t in r.value.st.visited - r.value.st.onStack)
    decreases |Universe(g) - st.visited|, 0, 1, 0
  {
    VisitClean(g, true, t, path, st);
    order2 := order;
    if t in st.onStack {
      var j := IndexOf(path, t);
      assert t in Elems(path[j..]);
    } else if t in st.visited {
    } else if t !in g.adj {
      var st1 := st.(visited := st.visited + {t}, onStack := st.onStack + {t});
      assert Visit(g, true, t, path, st) == Success(Step(false, st1.(onStack := st1.onStack - {t})));
      PopFinished(g, st1, order, t, st.onStack);
      order2 := order + [t];
    } else {
      order2 := FreshFinishes(g, t, path, st, order);
    }
  }

  /** `VisitFinishes` for a key not yet visited that has a task of its own. */
  lemma FreshFinishes(g: Graph, t: int, path: seq<int>, st: State, order: seq<int>) returns (order2: seq<int>)
    requires t in Universe(g) && st.visited <= Universe(g)
    requires st.onStack == Elems(path) && st.circular == {} && Finished(g, st, order)
    requires t !in st.onStack && t !in st.visited && t in g.adj
    ensures var r := Visit(g, true, t, path, st);
      r.Success? && (r.value.st.circular == {} ==>
        && !r.value.found && r.value.st.onStack == st.onStack
        && Finished(g, r.value.st, order2) && t in r.value.st.visited - r.value.st.onStack)
    decreases |Universe(g) - st.visited|, 0, 0, 0
  {
    VisitClean(g, true, t, path, st);
    var st1 := st.(visited := st.visited + {t}, onStack := st.onStack + {t});
    AddOneShrinks(Universe(g), st.visited, t);
    DepsInUniverse(g, t);
    ElemsSnoc(path, t);
    var order3 := VisitDepsFinish(g, g.adj[t], 0, path + [t], st1, order);
    var s := VisitDeps(g, true, g.adj[t], 0, path + [t], st1).value;
    assert Visit(g, true, t, path, st) == Success(Step(s.found, s.st.(onStack := s.st.onStack - {t})));
    order2 := order;
    if s.st.circular == {} {
      PopFinished(g, s.st, order3, t, st.onStack);
      order2 := order3 + [t];
    }
  }

  /** Taking a key whose dependencies all finished off the stack finishes it. */
  lemma PopFinished(g: Graph, a: State, order: seq<int>, t: int, below: set<int>)
    requires Finished(g, a, order) && a.onStack == below + {t} && t !in below && t in a.visited
    requires t in g.adj ==> forall d :: d in g.adj[t] ==> d in a.visited - a.onStack
    ensures a.onStack - {t} == below
    ensures Finished(g, a.(onStack := below), order + [t])
  {
    ElemsSnoc(order, t);
    ExtendFinished(g, order, t);
  }

  /** The loop over a key's dependencies: when it finds no cycle, each dependency is finished. */
  lemma VisitDepsFinish(g: Graph, deps: seq<int>, i: nat, path: seq<int>, st: State, order: seq<int>)
    returns (order2: seq<int>)
    requires i <= |deps| && forall d :: d in deps ==> d in Universe(g)
    requires st.visited <= Universe(g)
    requires st.onStack == Elems(path) && st.circular == {} && Finished(g, st, order)
    requires forall j :: 0 <= j < i ==> deps[j] in st.visited - st.onStack
    ensures var r := VisitDeps(g, true, deps, i, path, st);
      r.Success? && (r.value.st.circular == {} ==>
        && !r.value.found && r.value.st.onStack == st.onStack
        && Finished(g, r.value.st, order2)
        && forall d :: d in deps ==> d in r.value.st.visited - r.value.st.onStack)
    decreases |Universe(g) - st.visited|, 1, |deps| - i, 1
  {
    if i == |deps| {
      order2 := order;
      forall d | d in deps
        ensures d in st.visited - st.onStack
      {
        var j :| 0 <= j < |deps| && deps[j] == d;
      }
    } else {
      order2 := DepFinish(g, deps, i, path, st, order);
    }
  }

  /** One turn of that loop. */
  lemma DepFinish(g: Graph, deps: seq<int>, i: nat, path: seq<int>, st: State, order: seq<int>)
    returns (order2: seq<int>)
    requires i < |deps| && forall d :: d in deps ==> d in Universe(g)
    requires st.visited <= Universe(g)
    requires st.onStack == Elems(path) && st.circular == {} && Finished(g, st, order)
    requires forall j :: 0 <= j < i ==> deps[j] in st.visited - st.onStack
    ensures var r := VisitDeps(g, true, deps, i, path, st);
      r.Success? && (r.value.st.circular == {} ==>
        && !r.value.found && r.value.st.onStack == st.onStack
        && Finished(g, r.value.st, order2)
        && forall d :: d in deps ==> d in r.value.st.visited - r.value.st.onStack)
    decreases |Universe(g) - st.visited|, 1, |deps| - i, 0
  {
    VisitDepsClean(g, true, deps, i, path, st);
    order2 := order;
    var order1 := VisitFinishes(g, deps[i], path, st, order);
    var r := Visit(g, true, deps[i], path, st).value;
    GrowNoLarger(Universe(g), st.visited, r.st.visited);
    if r.st.circular == {} {
      assert VisitDeps(g, true, deps, i, path, st) == VisitDeps(g, true, deps, i + 1, path, r.st);
      assert forall j :: 0 <= j < i + 1 ==> deps[j] in r.st.visited - r.st.onStack;
      order2 := VisitDepsFinish(g, deps, i + 1, path, r.st, order1);
    } else if !r.found {
      assert VisitDeps(g, true, deps, i, path, st) == VisitDeps(g, true, deps, i + 1, path, r.st);
      VisitDepsGrows(g, true, deps, i + 1, path, r.st);
    }
  }

  /** The outer loop, when it finds no cycle, visits every key and leaves them all finished. */
  lemma RootsFinish(g: Graph, i: nat, st: State, order: seq<int>) returns (order2: seq<int>)
    requires WellFormed(g) && i <= |g.keys| && st.visited <= Universe(g)
    requires st.onStack == {} && st.circular == {} && Finished(g, st, order)
    requires forall j :: 0 <= j < i ==> g.keys[j] in st.visited
    ensures var r := Roots(g, true, i, st);
      r.Success? && (r.value.circular == {} ==>
        && r.value.onStack == {} && Finished(g, r.value, order2)
        && forall k :: k in g.keys ==> k in r.value.visited)
    decreases |g.keys| - i
  {
    RootsClean(g, i, st);
    order2 := order;
    if i == |g.keys| {
      assert forall k :: k in g.keys ==> k in st.visited;
    } else {
      KeysInUniverse(g, i);
      if g.keys[i] in st.visited {
        order2 := RootsFinish(g, i + 1, st, order);
      } else {
        assert Elems([]) == {};
        var order1 := VisitFinishes(g, g.keys[i], [], st, order);
        var r := Visit(g, true, g.keys[i], [], st);
        if r.value.st.circular == {} {
          order2 := RootsFinish(g, i + 1, r.value.st, order1);
        } else {
          RootsGrows(g, true, i + 1, r.value.st);
        }
      }
    }
  }

  /** A dependency listed before position `i` has its first position before `i`. */
  lemma IndexBefore(order: seq<int>, d: int, i: int)
    requires 0 <= i <= |order| && d in order[..i]
    ensures IndexOf(order, d) < i
  {
  }

  /** Along a walk through finished keys, first positions strictly fall. */
  lemma {:induction false} WalkDescends(g: Graph, st: State, order: seq<int>, w: seq<int>, j: int)
    requires Finished(g, st, order) && IsWalk(g, w) && 0 <= j < |w|
    requires forall k :: 0 <= k < |w| ==> w[k] in order
    ensures IndexOf(order, w[j]) + j <= IndexOf(order, w[0])
  {
    if j > 0 {
      WalkDescends(g, st, order, w, j - 1);
      var u := w[j - 1];
      var i := IndexOf(order, u);
      assert DepsBefore(g, order, i);
      assert w[j] in g.adj[u];
      IndexBefore(order, w[j], i);
    }
  }

  /** A graph whose keys all finished, each after its dependencies, has no cycle. */
  lemma FinishedAcyclic(g: Graph, st: State, order: seq<int>)
    requires Finished(g, st, order) && g.adj.Keys <= Elems(order)
    ensures Acyclic(g)
  {
    forall w | ClosedWalk(g, w)
      ensures false
    {
      var n := |w| - 1;
      forall k | 0 <= k < |w|
        ensures w[k] in order
      {
        assert w[k] in g.adj.Keys;
        assert w[k] in Elems(order);
      }
      WalkDescends(g, st, order, w, n);
      var i := IndexOf(order, w[n]);
      assert DepsBefore(g, order, i);
      IndexBefore(order, w[0], i);
    }
  }

  /** An empty cycle set means the dependency graph has no cycle. */
  lemma CycleSetComplete(tasks: seq<Task>)
    ensures CycleSet(tasks) == {} ==> Acyclic(BuildGraph(tasks))
  {
    var g := BuildGraph(tasks);
    assert Finished(g, Start, []);
    var order := RootsFinish(g, 0, Start, []);
    var r := Roots(g, true, 0, Start);
    assert CycleSet(tasks) == r.value.circular;
    if r.value.circular == {} {
      forall k | k in g.adj
        ensures k in Elems(order)
      {
        assert k in g.keys;
      }
      FinishedAcyclic(g, r.value, order);
    }
  }

  /**
   * The cycle set is empty exactly when the dependency graph is acyclic;
   * so is the detector as written, once it does not raise.
   */
  lemma NoCycleIffAcyclic(tasks: seq<Task>)
    ensures CycleSet(tasks) == {} <==> Acyclic(BuildGraph(tasks))
    ensures DetectCircularDependencies(tasks) == Success({}) <==> Acyclic(BuildGraph(tasks))
  {
    CycleSetComplete(tasks);
    CycleSetOnCycles(tasks);
  }
}

=== FILE: cycle_detection.dfy ===
/**
 * `detect_circular_dependencies`: a depth-first search over the "depends on"
 * graph of a task list, with a global visited set, a recursion-stack set and
 * the current path, collecting the keys of the tasks found on a cycle.
 *
 * The search is written once, with a flag `unwind`. With `unwind` false it is
 * the code as written: a call that finds a cycle returns without taking its
 * key off the recursion stack, and a later search that meets such a stale key
 * asks the current path for its position, which raises. With `unwind` true
 * every call takes its key off the stack before returning, the evident intent.
 */
module CycleDetection {
  import opened Wrappers
  import opened TaskModel

  /** `task.get('id') or i`: an id of 0, like a missing one, gives way to the position. */
  function NodeKey(t: Task, i: int): int {
    if t.id.Some? && t.id.value != 0 then t.id.value else i
  }

  /** `task_dict`: its keys in insertion order, and each key's dependency list. */
  datatype Graph = Graph(keys: seq<int>, adj: map<int, seq<int>>)

  ghost predicate WellFormed(g: Graph) {
    && (forall i, j :: 0 <= i < j < |g.keys| ==> g.keys[i] != g.keys[j])
    && (forall k :: k in g.adj <==> k in g.keys)
  }

  /** No later task has the same key, so this is the entry the dictionary keeps. */
  ghost predicate LastWithKey(tasks: seq<Task>, i: int)
    requires 0 <= i < |tasks|
  {
    forall j :: i < j < |tasks| ==> NodeKey(tasks[j], j) != NodeKey(tasks[i], i)
  }

  /** The keys the task list gives rise to. */
  function KeySet(tasks: seq<Task>): set<int> {
    set i | 0 <= i < |tasks| :: NodeKey(tasks[i], i)
  }

  /**
   * The dictionary comprehension over the task list: a repeated key keeps
   * its first position and takes the dependencies of its last task.
   */
  function BuildGraph(tasks: seq<Task>): (g: Graph)
    ensures WellFormed(g)
    decreases |tasks|
  {
    if tasks == [] then Graph([], map[])
    else
      var n := |tasks| - 1;
      var g := BuildGraph(tasks[..n]);
      var k := NodeKey(tasks[n], n);
      Graph(if k in g.adj then g.keys else g.keys + [k], g.adj[k := tasks[n].dependencies])
  }

  /** The dictionary has one key per distinct key of the task list, and no other. */
  lemma {:induction false} BuildGraphKeys(tasks: seq<Task>)
    ensures BuildGraph(tasks).adj.Keys == KeySet(tasks)
    decreases |tasks|
  {
    if tasks != [] {
      var n := |tasks| - 1;
      BuildGraphKeys(tasks[..n]);
      assert KeySet(tasks) == KeySet(tasks[..n]) + {NodeKey(tasks[n], n)} by {
        assert forall i :: 0 <= i < n ==> tasks[..n][i] == tasks[i];
      }
    }
  }

  /** Appending a task adds or overwrites its key. */
  lemma BuildGraphSnoc(tasks: seq<Task>, t: Task)
    ensures var g, k := BuildGraph(tasks), NodeKey(t, |tasks|);
      BuildGraph(tasks + [t]) == Graph(if k in g.adj then g.keys else g.keys + [k], g.adj[k := t.dependencies])
  {
    assert (tasks + [t])[..|tasks|] == tasks;
  }

  /** Each key maps to the dependencies of the last task with that key. */
  lemma {:induction false} BuildGraphLastWins(tasks: seq<Task>, i: int)
    requires 0 <= i < |tasks| && LastWithKey(tasks, i)
    ensures NodeKey(tasks[i], i) in BuildGraph(tasks).adj
    ensures BuildGraph(tasks).adj[NodeKey(tasks[i], i)] == tasks[i].dependencies
    decreases |tasks|
  {
    var n := |tasks| - 1;
    var ki := NodeKey(tasks[i], i);
    var kn := NodeKey(tasks[n], n);
    var g := BuildGraph(tasks[..n]);
    assert BuildGraph(tasks).adj == g.adj[kn := tasks[n].dependencies];
    if i < n {
      assert kn != ki;
      assert tasks[..n][i] == tasks[i];
      assert LastWithKey(tasks[..n], i) by {
        forall j | i < j < n
          ensures NodeKey(tasks[..n][j], j) != NodeKey(tasks[..n][i], i)
        {
          assert tasks[..n][j] == tasks[j];
        }
      }
      BuildGraphLastWins(tasks[..n], i);
    }
  }

  ghost predicate IsWalk(g: Graph, w: seq<int>) {
    && (forall j :: 0 <= j < |w| ==> w[j] in g.adj)
    && (forall i, j :: 0 <= i && j == i + 1 && j < |w| ==> w[j] in g.adj[w[i]])
  }

  /** A non-empty walk whose last node depends on its first. */
  ghost predicate ClosedWalk(g: Graph, w: seq<int>) {
    |w| > 0 && IsWalk(g, w) && w[0] in g.adj[w[|w| - 1]]
  }

  ghost predicate OnCycle(g: Graph, k: int) {
    exists w :: ClosedWalk(g, w) && k in w
  }

  ghost predicate Acyclic(g: Graph) {
    forall w :: !ClosedWalk(g, w)
  }

  ghost predicate AllOnCycles(g: Graph, s: set<int>) {
    forall k :: k in s ==> OnCycle(g, k)
  }

  /** Every key the search can reach: the tasks' keys and every listed dependency. */
  function Universe(g: Graph): set<int> {
    g.adj.Keys + set k, d | k in g.adj && d in g.adj[k] :: d
  }

  function Elems(s: seq<int>): set<int> {
    set x | x in s
  }

  /** `path.index(x)`: the first position of `x`. */
  function IndexOf(s: seq<int>, x: int): (i: nat)
    requires x in s
    ensures i < |s| && s[i] == x && x !in s[..i]
  {
    if s[0] == x then 0 else 1 + IndexOf(s[1..], x)
  }

  /** `visited`, `rec_stack` and (as a set) `circular`. */
  datatype State = State(visited: set<int>, onStack: set<int>, circular: set<int>)

  /** What a call of `has_cycle` returns, with the state it leaves. */
  datatype Step = Step(found: bool, st: State)

  /** The ValueError `path.index` raises for a key that is not on the path. */
  datatype CycleError = NotOnPath(key: int)

  lemma DepsInUniverse(g: Graph, k: int)
    requires k in g.adj
    ensures forall d :: d in g.adj[k] ==> d in Universe(g)
  {
  }

  lemma AddOneShrinks(u: set<int>, a: set<int>, t: int)
    requires t in u && t !in a
    ensures |u - (a + {t})| < |u - a|
  {
    assert u - a == (u - (a + {t})) + {t};
  }

  lemma GrowNoLarger(u: set<int>, a: set<int>, b: set<int>)
    requires a <= b
    ensures |u - b| <= |u - a|
  {
    assert u - a == (u - b) + ((u - a) - (u - b));
  }

  /** `has_cycle(t, path)`. */
  function Visit(g: Graph, unwind: bool, t: int, path: seq<int>, st: State): (r: Result<Step, CycleError>)
    requires t in Universe(g) && st.visited <= Universe(g)
    ensures r.Success? ==> st.visited <= r.value.st.visited <= Universe(g)
    decreases |Universe(g) - st.visited|, 0, 0
  {
    if t in st.onStack then
      if t in path then Success(Step(true, st.(circular := st.circular + Elems(path[IndexOf(path, t)..]))))
      else Failure(NotOnPath(t))
    else if t in st.visited then Success(Step(false, st))
    else
      var st1 := st.(visited := st.visited + {t}, onStack := st.onStack + {t});
      if t !in g.adj then Success(Step(false, st1.(onStack := st1.onStack - {t})))
      else
        AddOneShrinks(Universe(g), st.visited, t);
        DepsInUniverse(g, t);
        match VisitDeps(g, unwind, g.adj[t], 0, path + [t], st1)
        case Failure(e) => Failure(e)
        case Success(s) =>
          if s.found && !unwind then Success(s)
          else Success(Step(s.found, s.st.(onStack := s.st.onStack - {t})))
  }

  /** The loop of `has_cycle` over the dependencies of the last key on `path`. */
  function VisitDeps(g: Graph, unwind: bool, deps: seq<int>, i: nat, path: seq<int>, st: State)
    : (r: Result<Step, CycleError>)
    requires i <= |deps| && forall d :: d in deps ==> d in Universe(g)
    requires st.visited <= Universe(g)
    ensures r.Success? ==> st.visited <= r.value.st.visited <= Universe(g)
    decreases |Universe(g) - st.visited|, 1, |deps| - i
  {
    if i == |deps| then Success(Step(false, st))
    else
      match Visit(g, unwind, deps[i], path, st)
      case Failure(e) => Failure(e)
      case Success(s) =>
        if s.found then Success(s)
        else
          GrowNoLarger(Universe(g), st.visited, s.st.visited);
          VisitDeps(g, unwind, deps, i + 1, path, s.st)
  }

  /** The outer loop: a search from every key not yet visited, in key order. */
  function Roots(g: Graph, unwind: bool, i: nat, st: State): (r: Result<State, CycleError>)
    requires WellFormed(g) && i <= |g.keys| && st.visited <= Universe(g)
    decreases |g.keys| - i
  {
    if i == |g.keys| then Success(st)
    else if g.keys[i] in st.visited then Roots(g, unwind, i + 1, st)
    else
      match Visit(g, unwind, g.keys[i], [], st)
      case Failure(e) => Failure(e)
      case Success(s) => Roots(g, unwind, i + 1, s.st)
  }

  const Start: State := State({}, {}, {})

  function Detect(g: Graph, unwind: bool): Result<set<int>, CycleError>
    requires WellFormed(g)
  {
    match Roots(g, unwind, 0, Start)
    case Failure(e) => Failure(e)
    case Success(st) => Success(st.circular)
  }

  lemma ElemsSnoc(s: seq<int>, x: int)
    ensures Elems(s + [x]) == Elems(s) + {x}
  {
  }

  lemma WalkExtend(g: Graph, path: seq<int>, t: int)
    requires IsWalk(g, path) && t in g.adj
    requires path != [] ==> t in g.adj[path[|path| - 1]]
    ensures IsWalk(g, path + [t])
  {
    var w := path + [t];
    forall i, j | 0 <= i && j == i + 1 && j < |w|
      ensures w[j] in g.adj[w[i]]
    {
      if j < |path| {
        assert w[i] == path[i] && w[j] == path[j];
      }
    }
  }

  /** The stretch of a walk from some position on, closed by an edge back to its start, is a cycle. */
  lemma SuffixCloses(g: Graph, path: seq<int>, idx: nat)
    requires IsWalk(g, path) && idx < |path|
    requires path[idx] in g.adj[path[|path| - 1]]
    ensures ClosedWalk(g, path[idx..])
    ensures forall k :: k in Elems(path[idx..]) ==> OnCycle(g, k)
  {
    var w := path[idx..];
    forall j | 0 <= j < |w|
      ensures w[j] in g.adj
    {
      assert w[j] == path[idx + j];
    }
    forall i, j | 0 <= i && j == i + 1 && j < |w|
      ensures w[j] in g.adj[w[i]]
    {
      assert w[i] == path[idx + i] && w[j] == path[idx + j];
    }
    forall k | k in Elems(w)
      ensures OnCycle(g, k)
    {
      assert ClosedWalk(g, w) && k in w;
    }
  }

  /**
   * From a state whose recursion stack holds exactly the path, a search never
   * raises, and it leaves the stack as it found it unless it found a cycle
   * without unwinding.
   */
  lemma VisitClean(g: Graph, unwind: bool, t: int, path: seq<int>, st: State)
    requires t in Universe(g) && st.visited <= Universe(g)
    requires st.onStack == Elems(path)
    ensures Visit(g, unwind, t, path, st).Success?
    ensures unwind || !Visit(g, unwind, t, path, st).value.found ==>
              Visit(g, unwind, t, path, st).value.st.onStack == Elems(path)
    decreases |Universe(g) - st.visited|, 0, 0
  {
    if t !in st.onStack && t !in st.visited && t in g.adj {
      var st1 := st.(visited := st.visited + {t}, onStack := st.onStack + {t});
      AddOneShrinks(Universe(g), st.visited, t);
      DepsInUniverse(g, t);
      ElemsSnoc(path, t);
      VisitDepsClean(g, unwind, g.adj[t], 0, path + [t], st1);
    }
  }

  lemma VisitDepsClean(g: Graph, unwind: bool, deps: seq<int>, i: nat, path: seq<int>, st: State)
    requires i <= |deps| && forall d :: d in deps ==> d in Universe(g)
    requires st.visited <= Universe(g)
    requires st.onStack == Elems(path)
    ensures VisitDeps(g, unwind, deps, i, path, st).Success?
    ensures unwind || !VisitDeps(g, unwind, deps, i, path, st).value.found ==>
              VisitDeps(g, unwind, deps, i, path, st).value.st.onStack == Elems(path)
    decreases |Universe(g) - st.visited|, 1, |deps| - i
  {
    if i < |deps| {
      VisitClean(g, unwind, deps[i], path, st);
      var s := Visit(g, unwind, deps[i], path, st).value;
      if !s.found {
        GrowNoLarger(Universe(g), st.visited, s.st.visited);
        VisitDepsClean(g, unwind, deps, i + 1, path, s.st);
      }
    }
  }

  /**
   * Every key the search adds to the result lies on a cycle, and a search
   * that reports a cycle has added at least one key.
   */
  lemma VisitSound(g: Graph, unwind: bool, t: int, path: seq<int>, st: State)
    requires t in Universe(g) && st.visited <= Universe(g)
    requires IsWalk(g, path) && (path != [] ==> t in g.adj[path[|path| - 1]])
    requires AllOnCycles(g, st.circular)
    ensures var r := Visit(g, unwind, t, path, st);
      r.Success? ==> AllOnCycles(g, r.value.st.circular) && (r.value.found ==> r.value.st.circular != {})
    decreases |Universe(g) - st.visited|, 0, 0
  {
    if t in st.onStack {
      if t in path {
        var idx := IndexOf(path, t);
        SuffixCloses(g, path, idx);
        assert t in Elems(path[idx..]);
      }
    } else if t !in st.visited && t in g.adj {
      var st1 := st.(visited := st.visited + {t}, onStack := st.onStack + {t});
      AddOneShrinks(Universe(g), st.visited, t);
      DepsInUniverse(g, t);
      WalkExtend(g, path, t);
      VisitDepsSound(g, unwind, g.adj[t], 0, path + [t], st1);
    }
  }

  lemma VisitDepsSound(g: Graph, unwind: bool, deps: seq<int>, i: nat, path: seq<int>, st: State)
    requires i <= |deps| && forall d :: d in deps ==> d in Universe(g)
    requires st.visited <= Universe(g)
    requires IsWalk(g, path) && path != [] && deps == g.adj[path[|path| - 1]]
    requires AllOnCycles(g, st.circular)
    ensures var r := VisitDeps(g, unwind, deps, i, path, st);
      r.Success? ==> AllOnCycles(g, r.value.st.circular) && (r.value.found ==> r.value.st.circular != {})
    decreases |Universe(g) - st.visited|, 1, |deps| - i
  {
    if i < |deps| {
      VisitSound(g, unwind, deps[i], path, st);
      var r := Visit(g, unwind, deps[i], path, st);
      if r.Success? && !r.value.found {
        GrowNoLarger(Universe(g), st.visited, r.value.st.visited);
        VisitDepsSound(g, unwind, deps, i + 1, path, r.value.st);
      }
    }
  }

  /** The two searches agree except on the recursion stack, which as written only holds more. */
  ghost predicate Mirrors(a: State, c: State) {
    a.visited == c.visited && a.circular == c.circular && c.onStack <= a.onStack
  }

  /** Whenever the search as written does not raise, the unwinding one finds the same. */
  lemma VisitMirror(g: Graph, t: int, path: seq<int>, a: State, c: State)
    requires t in Universe(g) && a.visited <= Universe(g)
    requires Mirrors(a, c) && c.onStack == Elems(path)
    ensures var ra, rc := Visit(g, false, t, path, a), Visit(g, true, t, path, c);
      ra.Success? ==> rc.Success? && ra.value.found == rc.value.found && Mirrors(ra.value.st, rc.value.st)
    decreases |Universe(g) - a.visited|, 0, 0
  {
    if t !in a.onStack && t !in a.visited && t in g.adj {
      var a1 := a.(visited := a.visited + {t}, onStack := a.onStack + {t});
      var c1 := c.(visited := c.visited + {t}, onStack := c.onStack + {t});
      AddOneShrinks(Universe(g), a.visited, t);
      DepsInUniverse(g, t);
      ElemsSnoc(path, t);
      VisitDepsMirror(g, g.adj[t], 0, path + [t], a1, c1);
    }
  }

  lemma VisitDepsMirror(g: Graph, deps: seq<int>, i: nat, path: seq<int>, a: State, c: State)
    requires i <= |deps| && forall d :: d in deps ==> d in Universe(g)
    requires a.visited <= Universe(g)
    requires Mirrors(a, c) && c.onStack == Elems(path)
    ensures var ra, rc := VisitDeps(g, false, deps, i, path, a), VisitDeps(g, true, deps, i, path, c);
      ra.Success? ==> rc.Success? && ra.value.found == rc.value.found && Mirrors(ra.value.st, rc.value.st)
    decreases |Universe(g) - a.visited|, 1, |deps| - i
  {
    if i < |deps| {
      VisitMirror(g, deps[i], path, a, c);
      VisitClean(g, true, deps[i], path, c);
      var ra := Visit(g, false, deps[i], path, a);
      if ra.Success? && !ra.value.found {
        GrowNoLarger(Universe(g), a.visited, ra.value.st.visited);
        VisitDepsMirror(g, deps, i + 1, path, ra.value.st, Visit(g, true, deps[i], path, c).value.st);
      }
    }
  }

  lemma KeysInUniverse(g: Graph, i: nat)
    requires WellFormed(g) && i < |g.keys|
    ensures g.keys[i] in Universe(g)
  {
    assert g.keys[i] in g.keys;
  }

  /** With the stack unwound, the outer loop never raises. */
  lemma RootsClean(g: Graph, i: nat, st: State)
    requires WellFormed(g) && i <= |g.keys| && st.visited <= Universe(g) && st.onStack == {}
    ensures Roots(g, true, i, st).Success?
    decreases |g.keys| - i
  {
    if i < |g.keys| {
      KeysInUniverse(g, i);
      if g.keys[i] in st.visited {
        RootsClean(g, i + 1, st);
      } else {
        assert Elems([]) == {};
        VisitClean(g, true, g.keys[i], [], st);
        RootsClean(g, i + 1, Visit(g, true, g.keys[i], [], st).value.st);
      }
    }
  }

  lemma RootsSound(g: Graph, unwind: bool, i: nat, st: State)
    requires WellFormed(g) && i <= |g.keys| && st.visited <= Universe(g)
    requires AllOnCycles(g, st.circular)
    ensures Roots(g, unwind, i, st).Success? ==> AllOnCycles(g, Roots(g, unwind, i, st).value.circular)
    decreases |g.keys| - i
  {
    if i < |g.keys| {
      KeysInUniverse(g, i);
      if g.keys[i] in st.visited {
        RootsSound(g, unwind, i + 1, st);
      } else {
        VisitSound(g, unwind, g.keys[i], [], st);
        var r := Visit(g, unwind, g.keys[i], [], st);
        if r.Success? {
          RootsSound(g, unwind, i + 1, r.value.st);
        }
      }
    }
  }

  lemma RootsMirror(g: Graph, i: nat, a: State, c: State)
    requires WellFormed(g) && i <= |g.keys| && a.visited <= Universe(g)
    requires Mirrors(a, c) && c.onStack == {}
    ensures Roots(g, false, i, a).Success? ==>
              Roots(g, true, i, c).Success? && Roots(g, false, i, a).value.circular == Roots(g, true, i, c).value.circular
    decreases |g.keys| - i
  {
    if i < |g.keys| {
      KeysInUniverse(g, i);
      if g.keys[i] in a.visited {
        RootsMirror(g, i + 1, a, c);
      } else {
        assert Elems([]) == {};
        VisitMirror(g, g.keys[i], [], a, c);
        VisitClean(g, true, g.keys[i], [], c);
        var ra := Visit(g, false, g.keys[i], [], a);
        if ra.Success? {
          RootsMirror(g, i + 1, ra.value.st, Visit(g, true, g.keys[i], [], c).value.st);
        }
      }
    }
  }

  /** A key on a cycle witnesses that the graph is not acyclic. */
  lemma NothingOnCycle(g: Graph, s: set<int>)
    requires AllOnCycles(g, s)
    ensures Acyclic(g) ==> s == {}
  {
    forall k | k in s
      ensures !Acyclic(g)
    {
      var w :| ClosedWalk(g, w) && k in w;
    }
  }

  /** On an acyclic graph the search as written never raises and finds nothing. */
  lemma RootsAcyclic(g: Graph, i: nat, st: State)
    requires WellFormed(g) && i <= |g.keys| && st.visited <= Universe(g)
    requires Acyclic(g) && st.onStack == {} && st.circular == {}
    ensures Roots(g, false, i, st).Success? && Roots(g, false, i, st).value.circular == {}
    decreases |g.keys| - i
  {
    if i < |g.keys| {
      KeysInUniverse(g, i);
      if g.keys[i] in st.visited {
        RootsAcyclic(g, i + 1, st);
      } else {
        assert Elems([]) == {};
        VisitClean(g, false, g.keys[i], [], st);
        VisitSound(g, false, g.keys[i], [], st);
        var s := Visit(g, false, g.keys[i], [], st).value;
        NothingOnCycle(g, s.st.circular);
        RootsAcyclic(g, i + 1, s.st);
      }
    }
  }

  /** A key on a cycle is a key of the task dictionary. */
  lemma OnCycleIsKey(g: Graph, k: int)
    requires OnCycle(g, k)
    ensures k in g.adj
  {
    var w :| ClosedWalk(g, w) && k in w;
    var j :| 0 <= j < |w| && w[j] == k;
  }

  lemma CycleKeys(g: Graph, s: set<int>)
    requires AllOnCycles(g, s)
    ensures s <= g.adj.Keys
  {
    forall k | k in s
      ensures k in g.adj
    {
      OnCycleIsKey(g, k);
    }
  }

  /**
   * The cycle set with the recursion stack unwound on every return. Every
   * key in it belongs to a task; `CycleSetOnCycles` shows each lies on a cycle.
   */
  function CycleSet(tasks: seq<Task>): (s: set<int>)
    ensures s <= KeySet(tasks)
  {
    var g := BuildGraph(tasks);
    RootsClean(g, 0, Start);
    RootsSound(g, true, 0, Start);
    var s := Detect(g, true).value;
    assert s == Roots(g, true, 0, Start).value.circular;
    CycleKeys(g, s);
    BuildGraphKeys(tasks);
    s
  }

  /**
   * Every key of the cycle set lies on a cycle of the dependency graph, so
   * an acyclic task list yields the empty set.
   */
  lemma CycleSetOnCycles(tasks: seq<Task>)
    ensures AllOnCycles(BuildGraph(tasks), CycleSet(tasks))
    ensures Acyclic(BuildGraph(tasks)) ==> CycleSet(tasks) == {}
  {
    var g := BuildGraph(tasks);
    RootsClean(g, 0, Start);
    RootsSound(g, true, 0, Start);
    assert CycleSet(tasks) == Roots(g, true, 0, Start).value.circular;
    NothingOnCycle(g, CycleSet(tasks));
  }

  /**
   * `detect_circular_dependencies` as written: when it does not raise it
   * returns exactly the cycle set, and on an acyclic task list it never raises.
   */
  function DetectCircularDependencies(tasks: seq<Task>): (r: Result<set<int>, CycleError>)
    ensures r.Success? ==> r.value == CycleSet(tasks)
    ensures Acyclic(BuildGraph(tasks)) ==> r == Success({})
  {
    var g := BuildGraph(tasks);
    RootsMirror(g, 0, Start, Start);
    AcyclicNeverRaises(g);
    Detect(g, false)
  }

  lemma AcyclicNeverRaises(g: Graph)
    requires WellFormed(g)
    ensures Acyclic(g) ==> Detect(g, false) == Success({})
  {
    if Acyclic(g) {
      RootsAcyclic(g, 0, Start);
    }
  }
}

=== FILE: cycle_scenarios.dfy ===
/** Concrete task lists traced through the cycle detector. */
module CycleScenarios {
  import opened Wrappers
  import opened TaskModel
  import opened CycleDetection

  function Node(id: int, deps: seq<int>): Task {
    Task(Some(id), "", None, Missing, Missing, deps)
  }

  /** Three tasks with ids 1, 2 and 3 and the given dependency lists. */
  function Three(d1: seq<int>, d2: seq<int>, d3: seq<int>): seq<Task> {
    [Node(1, d1), Node(2, d2), Node(3, d3)]
  }

  function ThreeGraph(d1: seq<int>, d2: seq<int>, d3: seq<int>): Graph {
    Graph([1, 2, 3], map[1 := d1, 2 := d2, 3 := d3])
  }

  lemma TwoBuilt(d1: seq<int>, d2: seq<int>)
    ensures BuildGraph([Node(1, d1), Node(2, d2)]) == Graph([1, 2], map[1 := d1, 2 := d2])
  {
    var a, b := Node(1, d1), Node(2, d2);
    BuildGraphSnoc([], a);
    assert [] + [a] == [a];
    assert BuildGraph([a]) == Graph([1], map[1 := d1]);
    BuildGraphSnoc([a], b);
    assert [a] + [b] == [a, b];
  }

  lemma ThreeBuilt(d1: seq<int>, d2: seq<int>, d3: seq<int>)
    ensures BuildGraph(Three(d1, d2, d3)) == ThreeGraph(d1, d2, d3)
  {
    var a, b, c := Node(1, d1), Node(2, d2), Node(3, d3);
    TwoBuilt(d1, d2);
    BuildGraphSnoc([a, b], c);
    assert [a, b] + [c] == Three(d1, d2, d3);
  }

  lemma ShortPaths()
    ensures IndexOf([1, 2], 1) == 0 && Elems([1, 2][0..]) == {1, 2}
    ensures IndexOf([1, 2, 3], 1) == 0 && Elems([1, 2, 3][0..]) == {1, 2, 3}
  {
    assert [1, 2][0..] == [1, 2] && [1, 2, 3][0..] == [1, 2, 3];
  }

  /** When every dependency is one of the three ids, the search meets no other key. */
  lemma ThreeUniverse(d1: seq<int>, d2: seq<int>, d3: seq<int>)
    requires forall d :: d in d1 + d2 + d3 ==> d in {1, 2, 3}
    ensures Universe(ThreeGraph(d1, d2, d3)) == {1, 2, 3}
  {
    var g := ThreeGraph(d1, d2, d3);
    assert g.adj.Keys == {1, 2, 3};
    forall k, d | k in g.adj && d in g.adj[k]
      ensures d in {1, 2, 3}
    {
      assert d in d1 + d2 + d3;
    }
  }

  /** Task 3 depends on task 1, which sits on the cycle 1 -> 2 -> 1. */
  const StaleStack: seq<Task> := Three([2], [1], [1])

  const StaleGraph: Graph := ThreeGraph([2], [1], [1])

  lemma StaleStackGraph()
    ensures BuildGraph(StaleStack) == StaleGraph
    ensures Universe(StaleGraph) == {1, 2, 3}
  {
    ThreeBuilt([2], [1], [1]);
    ThreeUniverse([2], [1], [1]);
  }

  /** Back at 1 with path [1, 2], the search closes the cycle 1 -> 2 -> 1. */
  lemma CycleClosesAtOne(unwind: bool)
    ensures Universe(StaleGraph) == {1, 2, 3}
    ensures VisitDeps(StaleGraph, unwind, [1], 0, [1, 2], State({1, 2}, {1, 2}, {}))
         == Success(Step(true, State({1, 2}, {1, 2}, {1, 2})))
  {
    StaleStackGraph();
    var s2 := State({1, 2}, {1, 2}, {});
    ShortPaths();
    var r := Visit(StaleGraph, unwind, 1, [1, 2], s2);
    assert r.Success? && r.value.found && r.value.st.circular == {1, 2};
    assert r == Success(Step(true, State({1, 2}, {1, 2}, {1, 2})));
  }

  lemma SearchFromTwo(unwind: bool)
    ensures Universe(StaleGraph) == {1, 2, 3}
    ensures VisitDeps(StaleGraph, unwind, [2], 0, [1], State({1}, {1}, {}))
         == Success(Step(true, State({1, 2}, if unwind then {1} else {1, 2}, {1, 2})))
  {
    CycleClosesAtOne(unwind);
    var g := StaleGraph;
    var s1 := State({1}, {1}, {});
    assert s1.(visited := s1.visited + {2}, onStack := s1.onStack + {2}) == State({1, 2}, {1, 2}, {});
    assert [1] + [2] == [1, 2] && g.adj[2] == [1];
    var s4 := State({1, 2}, if unwind then {1} else {1, 2}, {1, 2});
    assert unwind ==> State({1, 2}, {1, 2}, {1, 2}).(onStack := {1, 2} - {2}) == s4;
    assert Visit(g, unwind, 2, [1], s1) == Success(Step(true, s4));
  }

  /** The search from 1 finds the cycle 1 -> 2 -> 1; only the unwinding search empties the stack. */
  lemma SearchFromOne(unwind: bool)
    ensures Universe(StaleGraph) == {1, 2, 3}
    ensures Visit(StaleGraph, unwind, 1, [], Start)
         == Success(Step(true, State({1, 2}, if unwind then {} else {1, 2}, {1, 2})))
  {
    SearchFromTwo(unwind);
    var g := StaleGraph;
    assert Start.(visited := Start.visited + {1}, onStack := Start.onStack + {1}) == State({1}, {1}, {});
    assert [] + [1] == [1] && g.adj[1] == [2];
    assert unwind ==> State({1, 2}, {1}, {1, 2}).(onStack := {1} - {1}) == State({1, 2}, {}, {1, 2});
  }

  /** As written, the search from 3 meets the stale key 1 on the stack but not on its path. */
  lemma SearchFromThreeRaises()
    ensures Universe(StaleGraph) == {1, 2, 3}
    ensures Visit(StaleGraph, false, 3, [], State({1, 2}, {1, 2}, {1, 2})) == Failure(NotOnPath(1))
  {
    StaleStackGraph();
    var g := StaleGraph;
    var a := State({1, 2}, {1, 2}, {1, 2});
    var a3 := State({1, 2, 3}, {1, 2, 3}, {1, 2});
    assert Visit(g, false, 1, [3], a3) == Failure(NotOnPath(1));
    assert a.(visited := a.visited + {3}, onStack := a.onStack + {3}) == a3;
    assert [] + [3] == [3] && g.adj[3] == [1];
  }

  /** With the stack unwound, the search from 3 only meets the visited key 1. */
  lemma SearchFromThreeUnwound()
    ensures Universe(StaleGraph) == {1, 2, 3}
    ensures Visit(StaleGraph, true, 3, [], State({1, 2}, {}, {1, 2}))
         == Success(Step(false, State({1, 2, 3}, {}, {1, 2})))
  {
    StaleStackGraph();
    var g := StaleGraph;
    var c := State({1, 2}, {}, {1, 2});
    var c3 := State({1, 2, 3}, {3}, {1, 2});
    assert Visit(g, true, 1, [3], c3) == Success(Step(false, c3));
    assert VisitDeps(g, true, [1], 0, [3], c3) == Success(Step(false, c3));
    assert c.(visited := c.visited + {3}, onStack := c.onStack + {3}) == c3;
    assert [] + [3] == [3] && g.adj[3] == [1];
    assert c3.(onStack := c3.onStack - {3}) == State({1, 2, 3}, {}, {1, 2});
  }

  /**
   * As written the detector raises on this list, although it has the cycle
   * 1 -> 2 -> 1, which the unwinding detector reports.
   */
  lemma StaleStackRaises()
    ensures DetectCircularDependencies(StaleStack) == Failure(NotOnPath(1))
    ensures CycleSet(StaleStack) == {1, 2}
  {
    StaleStackGraph();
    SearchFromOne(false);
    SearchFromOne(true);
    SearchFromThreeRaises();
    SearchFromThreeUnwound();
    var g := StaleGraph;
    assert Roots(g, false, 0, Start) == Failure(NotOnPath(1));
    assert Roots(g, true, 0, Start) == Success(State({1, 2, 3}, {}, {1, 2}));
  }

  /** The cycle 1 -> 2 -> 3 -> 1. */
  const Ring: seq<Task> := Three([2], [3], [1])

  const RingGraph: Graph := ThreeGraph([2], [3], [1])

  lemma RingGraphBuilt()
    ensures BuildGraph(Ring) == RingGraph
    ensures Universe(RingGraph) == {1, 2, 3}
  {
    ThreeBuilt([2], [3], [1]);
    ThreeUniverse([2], [3], [1]);
  }

  lemma RingClosesAtOne()
    ensures Universe(RingGraph) == {1, 2, 3}
    ensures VisitDeps(RingGraph, false, [1], 0, [1, 2, 3], State({1, 2, 3}, {1, 2, 3}, {}))
         == Success(Step(true, State({1, 2, 3}, {1, 2, 3}, {1, 2, 3})))
  {
    RingGraphBuilt();
    var st := State({1, 2, 3}, {1, 2, 3}, {});
    ShortPaths();
    var r := Visit(RingGraph, false, 1, [1, 2, 3], st);
    assert r.Success? && r.value.found && r.value.st.circular == {1, 2, 3};
    assert r == Success(Step(true, State({1, 2, 3}, {1, 2, 3}, {1, 2, 3})));
  }

  lemma RingFromTwo()
    ensures Universe(RingGraph) == {1, 2, 3}
    ensures VisitDeps(RingGraph, false, [2], 0, [1], State({1}, {1}, {}))
         == Success(Step(true, State({1, 2, 3}, {1, 2, 3}, {1, 2, 3})))
  {
    RingClosesAtOne();
    var g := RingGraph;
    var s2 := State({1, 2}, {1, 2}, {});
    assert s2.(visited := s2.visited + {3}, onStack := s2.onStack + {3}) == State({1, 2, 3}, {1, 2, 3}, {});
    assert [1, 2] + [3] == [1, 2, 3] && g.adj[3] == [1];
    assert Visit(g, false, 3, [1, 2], s2) == Success(Step(true, State({1, 2, 3}, {1, 2, 3}, {1, 2, 3})));
    var s1 := State({1}, {1}, {});
    assert s1.(visited := s1.visited + {2}, onStack := s1.onStack + {2}) == s2;
    assert [1] + [2] == [1, 2] && g.adj[2] == [3];
    assert Visit(g, false, 2, [1], s1) == Success(Step(true, State({1, 2, 3}, {1, 2, 3}, {1, 2, 3})));
  }

  lemma RingFromOne()
    ensures Universe(RingGraph) == {1, 2, 3}
    ensures Visit(RingGraph, false, 1, [], Start) == Success(Step(true, State({1, 2, 3}, {1, 2, 3}, {1, 2, 3})))
  {
    RingFromTwo();
    var g := RingGraph;
    assert Start.(visited := Start.visited + {1}, onStack := Start.onStack + {1}) == State({1}, {1}, {});
    assert [] + [1] == [1] && g.adj[1] == [2];
  }

  /** On the ring every task is reported, and the search as written does not raise. */
  lemma RingDetected()
    ensures DetectCircularDependencies(Ring) == Success({1, 2, 3})
    ensures CycleSet(Ring) == {1, 2, 3}
  {
    RingGraphBuilt();
    RingFromOne();
    var g := RingGraph;
    var f := State({1, 2, 3}, {1, 2, 3}, {1, 2, 3});
    assert Roots(g, false, 3, f) == Success(f);
    assert Roots(g, false, 2, f) == Success(f);
    assert Roots(g, false, 1, f) == Success(f);
    assert Roots(g, false, 0, Start) == Success(f);
    assert Detect(g, false) == Success({1, 2, 3});
  }

  /** The chain 3 -> 2 -> 1. */
  const Chain: seq<Task> := Three([], [1], [2])

  const ChainGraph: Graph := ThreeGraph([], [1], [2])

  lemma ChainGraphBuilt()
    ensures BuildGraph(Chain) == ChainGraph
    ensures Universe(ChainGraph) == {1, 2, 3}
  {
    ThreeBuilt([], [1], [2]);
    ThreeUniverse([], [1], [2]);
  }

  /** A search that reaches only visited keys finds nothing and leaves its key visited, off the stack. */
  lemma ChainStep(k: int, dep: int, before: set<int>)
    requires Universe(ChainGraph) == {1, 2, 3}
    requires k in {2, 3} && dep in before && ChainGraph.adj[k] == [dep] && k !in before && before <= {1, 2, 3}
    ensures Visit(ChainGraph, false, k, [], State(before, {}, {})) == Success(Step(false, State(before + {k}, {}, {})))
  {
    var g := ChainGraph;
    var st1 := State(before + {k}, {k}, {});
    assert Visit(g, false, dep, [k], st1) == Success(Step(false, st1));
    assert [] + [k] == [k];
    assert VisitDeps(g, false, [dep], 0, [k], st1) == Success(Step(false, st1));
    assert st1.(onStack := st1.onStack - {k}) == State(before + {k}, {}, {});
    var st0 := State(before, {}, {});
    assert st0.(visited := st0.visited + {k}, onStack := st0.onStack + {k}) == st1;
    assert k in g.adj;
  }

  /** On the chain nothing is reported. */
  lemma ChainFromOne()
    ensures Universe(ChainGraph) == {1, 2, 3}
    ensures Visit(ChainGraph, false, 1, [], Start) == Success(Step(false, State({1}, {}, {})))
  {
    ChainGraphBuilt();
    var g := ChainGraph;
    var st1 := State({1}, {1}, {});
    assert Start.(visited := Start.visited + {1}, onStack := Start.onStack + {1}) == st1;
    assert g.adj[1] == [];
    assert st1.(onStack := st1.onStack - {1}) == State({1}, {}, {});
  }

  lemma ChainClean()
    ensures DetectCircularDependencies(Chain) == Success({})
    ensures CycleSet(Chain) == {}
  {
    ChainGraphBuilt();
    ChainFromOne();
    var g := ChainGraph;
    ChainStep(2, 1, {1});
    ChainStep(3, 2, {1, 2});
    assert {1} + {2} == {1, 2} && {1, 2} + {3} == {1, 2, 3};
    assert Roots(g, false, 0, Start) == Success(State({1, 2, 3}, {}, {}));
  }

  /**
   * Task 1 depends on 2, task 2 on 3 and then on 1, task 3 on 2: the
   * cycles 1 -> 2 -> 1 and 2 -> 3 -> 2.
   */
  const Missed: seq<Task> := Three([2], [3, 1], [2])

  const MissedGraph: Graph := ThreeGraph([2], [3, 1], [2])

  lemma MissedGraphBuilt()
    ensures BuildGraph(Missed) == MissedGraph
    ensures Universe(MissedGraph) == {1, 2, 3}
  {
    ThreeBuilt([2], [3, 1], [2]);
    ThreeUniverse([2], [3, 1], [2]);
  }

  /** Back at 2 with path [1, 2, 3], the search closes the cycle 2 -> 3 -> 2. */
  lemma MissedClosesAtTwo(unwind: bool)
    ensures Universe(MissedGraph) == {1, 2, 3}
    ensures VisitDeps(MissedGraph, unwind, [2], 0, [1, 2, 3], State({1, 2, 3}, {1, 2, 3}, {}))
         == Success(Step(true, State({1, 2, 3}, {1, 2, 3}, {2, 3})))
  {
    MissedGraphBuilt();
    var st := State({1, 2, 3}, {1, 2, 3}, {});
    assert IndexOf([1, 2, 3], 2) == 1;
    assert [1, 2, 3][1..] == [2, 3] && Elems([2, 3]) == {2, 3};
    var r := Visit(MissedGraph, unwind, 2, [1, 2, 3], st);
    assert r.Success? && r.value.found && r.value.st.circular == {2, 3};
    assert r == Success(Step(true, State({1, 2, 3}, {1, 2, 3}, {2, 3})));
  }

  /** The search from 2 returns at its first dependency, 3, and never tries 1. */
  lemma MissedFromTwo(unwind: bool)
    ensures Universe(MissedGraph) == {1, 2, 3}
    ensures VisitDeps(MissedGraph, unwind, [2], 0, [1], State({1}, {1}, {}))
         == Success(Step(true, State({1, 2, 3}, if unwind then {1} else {1, 2, 3}, {2, 3})))
  {
    MissedClosesAtTwo(unwind);
    var g := MissedGraph;
    var s2 := State({1, 2}, {1, 2}, {});
    assert s2.(visited := s2.visited + {3}, onStack := s2.onStack + {3}) == State({1, 2, 3}, {1, 2, 3}, {});
    assert [1, 2] + [3] == [1, 2, 3] && g.adj[3] == [2];
    var s3 := State({1, 2, 3}, if unwind then {1, 2} else {1, 2, 3}, {2, 3});
    assert unwind ==> State({1, 2, 3}, {1, 2, 3}, {2, 3}).(onStack := {1, 2, 3} - {3}) == s3;
    assert Visit(g, unwind, 3, [1, 2], s2) == Success(Step(true, s3));
    assert VisitDeps(g, unwind, [3, 1], 0, [1, 2], s2) == Success(Step(true, s3));
    var s1 := State({1}, {1}, {});
    assert s1.(visited := s1.visited + {2}, onStack := s1.onStack + {2}) == s2;
    assert [1] + [2] == [1, 2] && g.adj[2] == [3, 1];
    var s4 := State({1, 2, 3}, if unwind then {1} else {1, 2, 3}, {2, 3});
    assert unwind ==> s3.(onStack := s3.onStack - {2}) == s4;
    assert Visit(g, unwind, 2, [1], s1) == Success(Step(true, s4));
  }

  lemma MissedFromOne(unwind: bool)
    ensures Universe(MissedGraph) == {1, 2, 3}
    ensures Visit(MissedGraph, unwind, 1, [], Start)
         == Success(Step(true, State({1, 2, 3}, if unwind then {} else {1, 2, 3}, {2, 3})))
  {
    MissedFromTwo(unwind);
    var g := MissedGraph;
    assert Start.(visited := Start.visited + {1}, onStack := Start.onStack + {1}) == State({1}, {1}, {});
    assert [] + [1] == [1] && g.adj[1] == [2];
    assert unwind ==> State({1, 2, 3}, {1}, {2, 3}).(onStack := {1} - {1}) == State({1, 2, 3}, {}, {2, 3});
  }

  /**
   * Task 1 lies on the cycle 1 -> 2 -> 1, yet neither detector reports it:
   * the search from 2 returns as soon as its first dependency, 3, reports
   * the cycle 2 -> 3 -> 2, and never follows the dependency on 1.
   */
  lemma MissedKey()
    ensures DetectCircularDependencies(Missed) == Success({2, 3})
    ensures CycleSet(Missed) == {2, 3}
    ensures OnCycle(BuildGraph(Missed), 1)
  {
    MissedGraphBuilt();
    MissedFromOne(false);
    MissedFromOne(true);
    var g := MissedGraph;
    var f := State({1, 2, 3}, {1, 2, 3}, {2, 3});
    assert Roots(g, false, 1, f) == Success(f);
    assert Roots(g, false, 0, Start) == Success(f);
    var u := State({1, 2, 3}, {}, {2, 3});
    assert Roots(g, true, 1, u) == Success(u);
    assert Roots(g, true, 0, Start) == Success(u);
    assert ClosedWalk(g, [1, 2]);
  }
}

=== FILE: explanation.dfy ===
/**
 * `_generate_explanation`: the human-readable reasons behind a score,
 * one per component at most, joined with " • ".
 */
module Explanation {
  import opened Wrappers
  import opened Text
  import opened ComponentScores

  const Bullet: char := '\U{2022}'
  const Separator: string := " \U{2022} "
  const Balanced: string := "Balanced priority"

  /**
   * The phrase for an urgency above 80, from the days until the due date;
   * without a usable date the source's exception handler says "High urgency".
   */
  function UrgentPhrase(due: Option<int>): string {
    match due
    case None => "High urgency"
    case Some(d) =>
      if d < 0 then "OVERDUE by " + NatToString(-d) + " days"
      else if d == 0 then "Due TODAY"
      else "Due very soon (" + NatToString(d) + " days)"
  }

  const Approaching: string := "Approaching deadline"
  const HighImportance: string := "High importance rating"
  const QuickWin: string := "Quick win (low effort)"
  const HighEffort: string := "High effort task"
  const BlocksOthers: string := "Blocks other tasks"

  /** Does some component earn a reason of its own? */
  predicate AnyReason(strategy: string, b: Breakdown) {
    || b.urgency > 60.0
    || b.importance > 75.0
    || b.effort > 80.0
    || (b.effort < 30.0 && strategy != "fastest_wins")
    || b.dependencies > 60.0
  }

  function UrgencyReason(due: Option<int>, b: Breakdown): seq<string> {
    if b.urgency > 80.0 then [UrgentPhrase(due)]
    else if b.urgency > 60.0 then [Approaching]
    else []
  }

  function ImportanceReason(b: Breakdown): seq<string> {
    if b.importance > 75.0 then [HighImportance] else []
  }

  function EffortReason(strategy: string, b: Breakdown): seq<string> {
    if b.effort > 80.0 then [QuickWin]
    else if b.effort < 30.0 && strategy != "fastest_wins" then [HighEffort]
    else []
  }

  function BlockingReason(b: Breakdown): seq<string> {
    if b.dependencies > 60.0 then [BlocksOthers] else []
  }

  /** The reasons, in the order the source checks them; "Balanced priority" when there are none. */
  function Reasons(strategy: string, due: Option<int>, b: Breakdown): (rs: seq<string>)
    ensures |rs| > 0
    ensures forall j :: 0 <= j < |rs| ==> |rs[j]| > 0
    ensures rs == [Balanced] <==> !AnyReason(strategy, b)
  {
    PhrasesDistinct(due);
    var all := UrgencyReason(due, b) + ImportanceReason(b) + EffortReason(strategy, b) + BlockingReason(b);
    assert Balanced !in all;
    if all == [] then [Balanced] else all
  }

  /** Each phrase appears among the reasons exactly when its condition holds. */
  lemma ReasonsListed(strategy: string, due: Option<int>, b: Breakdown)
    ensures var rs := Reasons(strategy, due, b);
      && (UrgentPhrase(due) in rs <==> b.urgency > 80.0)
      && (Approaching in rs <==> 60.0 < b.urgency <= 80.0)
      && (HighImportance in rs <==> b.importance > 75.0)
      && (QuickWin in rs <==> b.effort > 80.0)
      && (HighEffort in rs <==> b.effort < 30.0 && strategy != "fastest_wins")
      && (BlocksOthers in rs <==> b.dependencies > 60.0)
  {
    PhrasesDistinct(due);
    var u, i, e, k := UrgencyReason(due, b), ImportanceReason(b), EffortReason(strategy, b), BlockingReason(b);
    var all := u + i + e + k;
    assert forall x :: x in all <==> x in u || x in i || x in e || x in k;
  }

  /** The explanation string of a score. */
  function Explain(strategy: string, due: Option<int>, b: Breakdown): (s: string)
    ensures |s| > 0
    ensures s == Balanced <==> !AnyReason(strategy, b)
  {
    var rs := Reasons(strategy, due, b);
    JoinStartsWithFirst(rs, Separator);
    NoPhraseStartsBalanced(strategy, due, b, rs[0]);
    Join(rs, Separator)
  }

  /** Every reason phrase differs from every other one and from "Balanced priority". */
  lemma PhrasesDistinct(due: Option<int>)
    ensures UrgentPhrase(due) !in [Approaching, HighImportance, QuickWin, HighEffort, BlocksOthers, Balanced]
    ensures Approaching !in [HighImportance, QuickWin, HighEffort, BlocksOthers, Balanced]
    ensures HighImportance !in [QuickWin, HighEffort, BlocksOthers, Balanced]
    ensures QuickWin !in [HighEffort, BlocksOthers, Balanced]
    ensures HighEffort !in [BlocksOthers, Balanced]
    ensures BlocksOthers != Balanced
  {
    assert Approaching[0] == 'A' && HighImportance[0] == 'H' && QuickWin[0] == 'Q';
    assert HighEffort[0] == 'H' && BlocksOthers[0] == 'B' && Balanced[0] == 'B';
    assert |HighImportance| != |HighEffort| && BlocksOthers[1] != Balanced[1];
    var p := UrgentPhrase(due);
    match due
    case None =>
      assert p[1] == 'i' && |p| == 12;
    case Some(d) =>
      if d < 0 {
        assert p[0] == 'O';
      } else if d == 0 {
        assert p[0] == 'D';
      } else {
        assert p[..4] == "Due ";
        assert p[0] == 'D';
      }
  }

  /** No reason phrase other than "Balanced priority" itself is a prefix of it. */
  lemma NoPhraseStartsBalanced(strategy: string, due: Option<int>, b: Breakdown, r: string)
    requires r in Reasons(strategy, due, b)
    ensures r == Balanced || !(r <= Balanced)
  {
    if r == UrgentPhrase(due) {
      match due
      case None =>
        assert r[1] != Balanced[1];
      case Some(d) =>
        if d < 0 {
          assert r[0] != Balanced[0];
        } else {
          assert r[0] != Balanced[0];
        }
    } else if r == BlocksOthers || r == QuickWin || r == HighEffort {
      assert r[1] != Balanced[1];
    } else if r == Approaching || r == HighImportance {
      assert r[0] != Balanced[0];
    }
  }

  /** No fixed phrase contains the bullet of the separator. */
  lemma FixedPhrasesUnbulleted()
    ensures Bullet !in Approaching && Bullet !in HighImportance && Bullet !in QuickWin
  {
  }

  lemma OtherPhrasesUnbulleted()
    ensures Bullet !in HighEffort && Bullet !in BlocksOthers && Bullet !in Balanced
  {
  }

  lemma UrgentPartsUnbulleted()
    ensures Bullet !in "High urgency" && Bullet !in "OVERDUE by " && Bullet !in " days"
    ensures Bullet !in "Due TODAY" && Bullet !in "Due very soon (" && Bullet !in " days)"
  {
  }

  lemma UrgentPhraseUnbulleted(due: Option<int>)
    ensures Bullet !in UrgentPhrase(due)
  {
    UrgentPartsUnbulleted();
    if due.Some? {
      var d := due.value;
      var digits := NatToString(if d < 0 then -d else d);
      assert forall i :: 0 <= i < |digits| ==> digits[i] != Bullet;
    }
  }

  /** No reason phrase contains the bullet of the separator. */
  lemma PhrasesUnbulleted(strategy: string, due: Option<int>, b: Breakdown)
    ensures forall k :: 0 <= k < |Reasons(strategy, due, b)| ==> Bullet !in Reasons(strategy, due, b)[k]
  {
    FixedPhrasesUnbulleted();
    OtherPhrasesUnbulleted();
    UrgentPhraseUnbulleted(due);
    var rs := Reasons(strategy, due, b);
    var all := UrgencyReason(due, b) + ImportanceReason(b) + EffortReason(strategy, b) + BlockingReason(b);
    forall k | 0 <= k < |rs|
      ensures Bullet !in rs[k]
    {
      assert rs[k] in rs;
      assert rs[k] == Balanced || rs[k] in all;
    }
  }

  /** The explanation reads back: splitting it on " • " gives the reasons. */
  lemma ExplainSplit(strategy: string, due: Option<int>, b: Breakdown)
    ensures Split(Explain(strategy, due, b), Separator) == Reasons(strategy, due, b)
  {
    var rs := Reasons(strategy, due, b);
    PhrasesUnbulleted(strategy, due, b);
    assert Separator[1] == Bullet && Separator[..1] == " ";
    SplitJoin(rs, Separator, 1);
  }

  /** Each phrase is a field of the explanation exactly when its condition holds. */
  lemma ExplainFields(strategy: string, due: Option<int>, b: Breakdown)
    ensures var fs := Split(Explain(strategy, due, b), Separator);
      && (UrgentPhrase(due) in fs <==> b.urgency > 80.0)
      && (Approaching in fs <==> 60.0 < b.urgency <= 80.0)
      && (HighImportance in fs <==> b.importance > 75.0)
      && (QuickWin in fs <==> b.effort > 80.0)
      && (HighEffort in fs <==> b.effort < 30.0 && strategy != "fastest_wins")
      && (BlocksOthers in fs <==> b.dependencies > 60.0)
      && (Balanced in fs <==> !AnyReason(strategy, b))
  {
    ExplainSplit(strategy, due, b);
    ReasonsListed(strategy, due, b);
    BalancedAlone(strategy, due, b);
  }

  /** "Balanced priority" appears among the reasons only as the sole one. */
  lemma BalancedAlone(strategy: string, due: Option<int>, b: Breakdown)
    ensures Balanced in Reasons(strategy, due, b) <==> !AnyReason(strategy, b)
  {
    PhrasesDistinct(due);
    var all := UrgencyReason(due, b) + ImportanceReason(b) + EffortReason(strategy, b) + BlockingReason(b);
    assert Balanced !in all;
  }
}

=== FILE: float_ops.dfy ===
/**
 * The scorer's floating-point primitives, `x ** 1.5`, `math.log(x, 2)` and
 * `round(x, 2)`. They cannot be computed exactly over the reals, so the model
 * takes them as parameters and states the facts about them that the scorer
 * relies on.
 */
module FloatOps {

  /**
   * `pow15(x)` stands for `x ** 1.5`, `log2(x)` for `math.log(x, 2)` and
   * `round2(x)` for `round(x, 2)`.
   */
  datatype Ops = Ops(pow15: real -> real, log2: real -> real, round2: real -> real)

  /**
   * True of the real functions: x^1.5 is the non-negative square root of x^3;
   * log2 is strictly increasing on the positive reals with log2(1) = 0 and
   * log2(2) = 1; rounding to two decimals never reverses an order, moves a
   * number by at most half a hundredth, and leaves the whole numbers the
   * scores are built from as they are.
   */
  ghost predicate Sound(ops: Ops) {
    && (forall x :: 0.0 <= x ==> RootOfCube(ops, x))
    && (forall x, y :: 0.0 < x < y ==> LogsInOrder(ops, x, y))
    && ops.log2(1.0) == 0.0
    && ops.log2(2.0) == 1.0
    && (forall x, y :: x <= y ==> RoundsInOrder(ops, x, y))
    && (forall x :: x - 0.005 <= ops.round2(x) <= x + 0.005)
    && ops.round2(0.0) == 0.0 && ops.round2(10.0) == 10.0 && ops.round2(30.0) == 30.0
    && ops.round2(50.0) == 50.0 && ops.round2(95.0) == 95.0 && ops.round2(100.0) == 100.0
  }

  /**
   * The three order and power facts are stated through these predicates so
   * that they apply only where a proof asks for them, through the lemmas below.
   */
  ghost predicate RootOfCube(ops: Ops, x: real) {
    0.0 <= ops.pow15(x) && ops.pow15(x) * ops.pow15(x) == x * x * x
  }

  ghost predicate LogsInOrder(ops: Ops, x: real, y: real) {
    ops.log2(x) < ops.log2(y)
  }

  ghost predicate RoundsInOrder(ops: Ops, x: real, y: real) {
    ops.round2(x) <= ops.round2(y)
  }

  /** x^1.5 is the non-negative square root of x^3. */
  lemma PowSquare(ops: Ops, x: real)
    requires Sound(ops) && 0.0 <= x
    ensures 0.0 <= ops.pow15(x) && ops.pow15(x) * ops.pow15(x) == x * x * x
  {
    assert RootOfCube(ops, x);
  }

  lemma LogIncreasing(ops: Ops, x: real, y: real)
    requires Sound(ops) && 0.0 < x < y
    ensures ops.log2(x) < ops.log2(y)
  {
    assert LogsInOrder(ops, x, y);
  }

  lemma RoundMonotone(ops: Ops, x: real, y: real)
    requires Sound(ops) && x <= y
    ensures ops.round2(x) <= ops.round2(y)
  {
    assert RoundsInOrder(ops, x, y);
  }

  /** Rounding keeps a number between two bounds that rounding leaves as they are. */
  lemma RoundBetween(ops: Ops, x: real, lo: real, hi: real)
    requires Sound(ops) && lo <= x <= hi
    requires ops.round2(lo) == lo && ops.round2(hi) == hi
    ensures lo <= ops.round2(x) <= hi
  {
    RoundMonotone(ops, lo, x);
    RoundMonotone(ops, x, hi);
  }

  lemma CubeLess(x: real, y: real)
    requires 0.0 <= x < y
    ensures x * x * x < y * y * y
  {
    assert x * x * x <= x * x * y;
    assert x * x * y <= x * y * y;
    assert x * y * y < y * y * y;
  }

  /** Of two non-negative numbers, the one with the smaller square is smaller. */
  lemma SquareLess(a: real, b: real)
    requires 0.0 <= a && 0.0 <= b && a * a < b * b
    ensures a < b
  {
    assert (b - a) * (b + a) == b * b - a * a;
  }

  /** x^1.5 is strictly increasing on the non-negative reals. */
  lemma PowIncreasing(ops: Ops, x: real, y: real)
    requires Sound(ops) && 0.0 <= x < y
    ensures 0.0 <= ops.pow15(x) < ops.pow15(y)
  {
    var a, b := ops.pow15(x), ops.pow15(y);
    PowSquare(ops, x);
    PowSquare(ops, y);
    CubeLess(x, y);
    SquareLess(a, b);
  }

  lemma PowMonotone(ops: Ops, x: real, y: real)
    requires Sound(ops) && 0.0 <= x <= y
    ensures 0.0 <= ops.pow15(x) <= ops.pow15(y)
  {
    if x < y {
      PowIncreasing(ops, x, y);
    } else {
      PowSquare(ops, x);
    }
  }

  /** 10^1.5, the divisor of the importance score, is positive. */
  lemma PowTenPositive(ops: Ops)
    requires Sound(ops)
    ensures ops.pow15(10.0) > 0.0
  {
    PowIncreasing(ops, 0.0, 10.0);
  }

  /** 3^1.5 is at most a fifth of 10^1.5 (27 < 0.04 * 1000). */
  lemma PowThreeSmall(ops: Ops)
    requires Sound(ops)
    ensures ops.pow15(3.0) < 0.2 * ops.pow15(10.0)
  {
    var a, b := ops.pow15(3.0), ops.pow15(10.0);
    PowSquare(ops, 3.0);
    PowSquare(ops, 10.0);
    assert (0.2 * b) * (0.2 * b) == 40.0;
    SquareLess(a, 0.2 * b);
  }

  /** log2 is positive above 1. */
  lemma LogPositive(ops: Ops, x: real)
    requires Sound(ops) && 1.0 < x
    ensures 0.0 < ops.log2(x)
  {
    LogIncreasing(ops, 1.0, x);
  }

  lemma DivLess(a: real, b: real, p: real)
    requires 0.0 < p && a < b
    ensures a / p < b / p
  {
    assert b / p - a / p == (b - a) / p;
  }

  lemma DivAtMost(a: real, p: real, c: real)
    requires 0.0 < p && a <= c * p
    ensures a / p <= c
  {
    assert a / p <= (c * p) / p;
  }
}

=== FILE: score_scenarios.dfy ===
/** Concrete task lists traced through `score_tasks` and `get_top_suggestions`. */
module ScoreScenarios {
  import opened Wrappers
  import opened FloatOps
  import opened TaskModel
  import opened CycleDetection
  import opened CycleScenarios
  import opened TaskScorer

  /**
   * On the list 1 -> 2, 2 -> 1, 3 -> 1 of CycleScenarios.StaleStackRaises,
   * `score_tasks` and `get_top_suggestions` as written let the detector's
   * error escape.
   */
  lemma ScoreTasksRaises(sc: Scorer, count: int)
    requires Sound(sc.ops)
    ensures ScoreTasksAsWritten(sc, StaleStack) == Failure(NotOnPath(1))
    ensures GetTopSuggestionsAsWritten(sc, StaleStack, count) == Failure(NotOnPath(1))
  {
    StaleStackRaises();
    StaleStackIds();
  }

  /** Every task of the list has an id, so `score_tasks` assigns none. */
  lemma StaleStackIds()
    ensures AssignIds(StaleStack) == StaleStack
  {
    var all := AssignIds(StaleStack);
    assert forall i :: 0 <= i < 3 ==> all[i] == StaleStack[i];
  }
}

=== FILE: stable_sort.dfy ===
/**
 * `list.sort(key=..., reverse=True)`: a stable sort into descending key
 * order. Stability is stated per key value: the elements sharing a key keep
 * their relative order.
 */
module StableSort {

  predicate SortedDesc<T>(xs: seq<T>, key: T -> real) {
    forall i, j :: 0 <= i < j < |xs| ==> key(xs[i]) >= key(xs[j])
  }

  /** The elements whose key is `v`, in their order in `xs`. */
  function KeyClass<T>(xs: seq<T>, key: T -> real, v: real): seq<T> {
    if xs == [] then []
    else (if key(xs[0]) == v then [xs[0]] else []) + KeyClass(xs[1..], key, v)
  }

  /** The order of the elements sharing a key, the same in both sequences. */
  ghost predicate SameKeyOrder<T>(xs: seq<T>, ys: seq<T>, key: T -> real) {
    forall v :: KeyClass(xs, key, v) == KeyClass(ys, key, v)
  }

  lemma {:induction false} KeyClassConcat<T>(a: seq<T>, b: seq<T>, key: T -> real, v: real)
    ensures KeyClass(a + b, key, v) == KeyClass(a, key, v) + KeyClass(b, key, v)
    decreases |a|
  {
    if a == [] {
      assert a + b == b;
    } else {
      var h := if key(a[0]) == v then [a[0]] else [];
      assert (a + b)[0] == a[0] && (a + b)[1..] == a[1..] + b;
      assert KeyClass(a + b, key, v) == h + KeyClass(a[1..] + b, key, v);
      KeyClassConcat(a[1..], b, key, v);
      assert KeyClass(a, key, v) == h + KeyClass(a[1..], key, v);
    }
  }

  /** No element of a descending sequence headed by a smaller key has key `v`. */
  lemma {:induction false} KeyClassBelow<T>(ys: seq<T>, key: T -> real, v: real)
    requires SortedDesc(ys, key) && ys != [] && key(ys[0]) < v
    ensures KeyClass(ys, key, v) == []
    decreases |ys|
  {
    if |ys| > 1 {
      assert key(ys[1..][0]) <= key(ys[0]);
      KeyClassBelow(ys[1..], key, v);
    }
  }

  /** Places `x` after every element whose key is at least its own. */
  function Insert<T>(ys: seq<T>, x: T, key: T -> real): (r: seq<T>)
    ensures |r| == |ys| + 1
  {
    if ys == [] || key(ys[0]) < key(x) then [x] + ys
    else [ys[0]] + Insert(ys[1..], x, key)
  }

  lemma {:induction false} InsertPermutes<T>(ys: seq<T>, x: T, key: T -> real)
    ensures multiset(Insert(ys, x, key)) == multiset(ys) + multiset{x}
    decreases |ys|
  {
    if ys != [] && key(ys[0]) >= key(x) {
      InsertPermutes(ys[1..], x, key);
      assert ys == [ys[0]] + ys[1..];
    }
  }

  lemma {:induction false} InsertSorted<T>(ys: seq<T>, x: T, key: T -> real)
    requires SortedDesc(ys, key)
    ensures SortedDesc(Insert(ys, x, key), key)
    decreases |ys|
  {
    if ys != [] && key(ys[0]) >= key(x) {
      var h, r := ys[0], Insert(ys[1..], x, key);
      InsertSorted(ys[1..], x, key);
      InsertKeysAtMost(ys[1..], x, key, key(h));
      forall i, j | 0 <= i < j < |[h] + r|
        ensures key(([h] + r)[i]) >= key(([h] + r)[j])
      {
        if i > 0 {
          assert ([h] + r)[i] == r[i - 1] && ([h] + r)[j] == r[j - 1];
        } else {
          assert ([h] + r)[j] == r[j - 1];
        }
      }
    }
  }

  predicate KeysAtMost<T>(xs: seq<T>, key: T -> real, b: real) {
    forall i :: 0 <= i < |xs| ==> key(xs[i]) <= b
  }

  lemma {:induction false} InsertKeysAtMost<T>(ys: seq<T>, x: T, key: T -> real, b: real)
    requires KeysAtMost(ys, key, b) && key(x) <= b
    ensures KeysAtMost(Insert(ys, x, key), key, b)
    decreases |ys|
  {
    if ys != [] && key(ys[0]) >= key(x) {
      InsertKeysAtMost(ys[1..], x, key, b);
      var r := Insert(ys[1..], x, key);
      assert forall i :: 0 < i < |[ys[0]] + r| ==> ([ys[0]] + r)[i] == r[i - 1];
    }
  }

  lemma KeyClassOne<T>(x: T, key: T -> real, v: real)
    ensures KeyClass([x], key, v) == if key(x) == v then [x] else []
  {
    assert [x][1..] == [];
  }

  lemma {:induction false} InsertKeyClass<T>(ys: seq<T>, x: T, key: T -> real, v: real)
    requires SortedDesc(ys, key)
    ensures KeyClass(Insert(ys, x, key), key, v) == KeyClass(ys, key, v) + KeyClass([x], key, v)
    decreases |ys|
  {
    KeyClassOne(x, key, v);
    if ys == [] {
      assert Insert(ys, x, key) == [x];
      assert KeyClass(ys, key, v) == [];
    } else if key(ys[0]) < key(x) {
      InsertFront(ys, x, key);
      KeyClassConcat([x], ys, key, v);
      if key(x) == v {
        KeyClassBelow(ys, key, v);
      }
    } else {
      var h, t := ys[0], ys[1..];
      InsertSkip(ys, x, key);
      InsertKeyClassTail(ys, x, key, v);
      KeyClassConcat([h], Insert(t, x, key), key, v);
      KeyClassConcat([h], t, key, v);
      assert [h] + t == ys;
    }
  }

  lemma InsertFront<T>(ys: seq<T>, x: T, key: T -> real)
    requires ys != [] && key(ys[0]) < key(x)
    ensures Insert(ys, x, key) == [x] + ys
  {
  }

  lemma InsertSkip<T>(ys: seq<T>, x: T, key: T -> real)
    requires ys != [] && key(ys[0]) >= key(x)
    ensures Insert(ys, x, key) == [ys[0]] + Insert(ys[1..], x, key)
  {
  }

  lemma {:induction false} InsertKeyClassTail<T>(ys: seq<T>, x: T, key: T -> real, v: real)
    requires SortedDesc(ys, key) && ys != []
    ensures KeyClass(Insert(ys[1..], x, key), key, v) == KeyClass(ys[1..], key, v) + KeyClass([x], key, v)
    decreases |ys|, 0
  {
    assert SortedDesc(ys[1..], key);
    InsertKeyClass(ys[1..], x, key, v);
  }

  /**
   * Insertion sort into descending key order: a permutation, sorted, and
   * stable — each key's elements in their original order.
   */
  function SortDesc<T>(xs: seq<T>, key: T -> real): (ys: seq<T>)
    ensures |ys| == |xs|
    ensures multiset(ys) == multiset(xs)
    ensures SortedDesc(ys, key)
    ensures SameKeyOrder(xs, ys, key)
    decreases |xs|
  {
    if xs == [] then []
    else
      var n := |xs| - 1;
      var prev := SortDesc(xs[..n], key);
      assert xs == xs[..n] + [xs[n]];
      InsertSorted(prev, xs[n], key);
      InsertPermutes(prev, xs[n], key);
      forall v
        ensures KeyClass(xs, key, v) == KeyClass(Insert(prev, xs[n], key), key, v)
      {
        KeyClassConcat(xs[..n], [xs[n]], key, v);
        InsertKeyClass(prev, xs[n], key, v);
      }
      Insert(prev, xs[n], key)
  }

  lemma KeyClassHead<T>(xs: seq<T>, key: T -> real)
    requires xs != []
    ensures KeyClass(xs, key, key(xs[0])) != [] && KeyClass(xs, key, key(xs[0]))[0] == xs[0]
  {
  }

  /** A key class that is not empty has a member whose key is at most the head's. */
  lemma {:induction false} KeyClassNonEmpty<T>(xs: seq<T>, key: T -> real, v: real)
    requires SortedDesc(xs, key) && KeyClass(xs, key, v) != []
    ensures xs != [] && v <= key(xs[0])
    decreases |xs|
  {
    if xs != [] && key(xs[0]) != v {
      KeyClassNonEmpty(xs[1..], key, v);
      assert xs[1..][0] == xs[1];
    }
  }

  /**
   * A stable descending sort has only one possible outcome: two sorted
   * sequences with the same elements in the same order within every key are
   * equal. So `SortDesc` is exactly what `list.sort(key=..., reverse=True)` leaves.
   */
  lemma {:induction false} StableSortUnique<T>(ys: seq<T>, zs: seq<T>, key: T -> real)
    requires SortedDesc(ys, key) && SortedDesc(zs, key) && SameKeyOrder(ys, zs, key)
    ensures ys == zs
    decreases |ys|
  {
    if ys == [] && zs != [] {
      KeyClassHead(zs, key);
    } else if ys != [] && zs == [] {
      KeyClassHead(ys, key);
    } else if ys != [] {
      KeyClassHead(ys, key);
      KeyClassHead(zs, key);
      assert SameKeyOrder(ys, zs, key);
      assert KeyClass(ys, key, key(ys[0])) == KeyClass(zs, key, key(ys[0]));
      assert KeyClass(ys, key, key(zs[0])) == KeyClass(zs, key, key(zs[0]));
      KeyClassNonEmpty(zs, key, key(ys[0]));
      KeyClassNonEmpty(ys, key, key(zs[0]));
      assert ys[0] == zs[0];
      forall v
        ensures KeyClass(ys[1..], key, v) == KeyClass(zs[1..], key, v)
      {
        var p := if key(ys[0]) == v then [ys[0]] else [];
        assert KeyClass(ys, key, v) == p + KeyClass(ys[1..], key, v);
        assert KeyClass(zs, key, v) == p + KeyClass(zs[1..], key, v);
        assert KeyClass(ys, key, v) == KeyClass(zs, key, v);
        assert KeyClass(ys[1..], key, v) == KeyClass(ys, key, v)[|p|..];
        assert KeyClass(zs[1..], key, v) == KeyClass(zs, key, v)[|p|..];
      }
      StableSortUnique(ys[1..], zs[1..], key);
      assert ys == [ys[0]] + ys[1..] && zs == [zs[0]] + zs[1..];
    }
  }

  /** Two elements swap exactly when the second has the strictly larger key. */
  lemma SortTwo<T>(xs: seq<T>, key: T -> real)
    requires |xs| == 2
    ensures key(xs[0]) < key(xs[1]) ==> SortDesc(xs, key) == [xs[1], xs[0]]
    ensures key(xs[0]) >= key(xs[1]) ==> SortDesc(xs, key) == xs
  {
    var a, b := xs[0], xs[1];
    assert xs[..1] == [a];
    SortOne(a, key);
    assert SortDesc(xs, key) == Insert([a], b, key);
    if key(a) < key(b) {
      InsertFront([a], b, key);
    } else {
      InsertSkip([a], b, key);
      assert [a][1..] == [];
      assert xs == [a] + [b];
    }
  }

  lemma SortOne<T>(a: T, key: T -> real)
    ensures SortDesc([a], key) == [a]
  {
    assert [a][..0] == [];
  }

  /** Each element of the sorted sequence is an element of the input. */
  lemma SortedEntryFrom<T>(xs: seq<T>, key: T -> real, i: int) returns (j: int)
    requires 0 <= i < |xs|
    ensures 0 <= j < |xs| && SortDesc(xs, key)[i] == xs[j]
  {
    var ys := SortDesc(xs, key);
    assert ys[i] in multiset(ys);
    j :| 0 <= j < |xs| && xs[j] == ys[i];
  }
}

=== FILE: strategies.dfy ===
/**
 * The weight vectors of the scoring strategies (`_get_weights`) and the
 * weighted combination of the four component scores.
 */
module Strategies {
  import opened Wrappers
  import opened ComponentScores

  /** A weight per component score. */
  datatype Weights = Weights(urgency: real, importance: real, effort: real, dependencies: real)

  /** `DEFAULT_WEIGHTS`, used for a strategy name the table does not know. */
  const DefaultWeights: Weights := Weights(0.35, 0.30, 0.20, 0.15)

  const FastestWins: Weights := Weights(0.15, 0.15, 0.60, 0.10)
  const HighImpact: Weights := Weights(0.15, 0.65, 0.05, 0.15)
  const DeadlineDriven: Weights := Weights(0.70, 0.15, 0.05, 0.10)

  /** The built-in strategy table. */
  function StrategyTable(name: string): (r: Option<Weights>)
    ensures r.Some? <==> name in ["smart_balance", "fastest_wins", "high_impact", "deadline_driven"]
    ensures r.Some? ==> Convex(r.value)
  {
    if name == "smart_balance" then Some(Weights(0.35, 0.30, 0.20, 0.15))
    else if name == "fastest_wins" then Some(FastestWins)
    else if name == "high_impact" then Some(HighImpact)
    else if name == "deadline_driven" then Some(DeadlineDriven)
    else None
  }

  /** The weights a scorer without custom weights can have. */
  predicate BuiltIn(w: Weights) {
    w == DefaultWeights || w == FastestWins || w == HighImpact || w == DeadlineDriven
  }

  /** Non-negative weights that sum to one. */
  predicate Convex(w: Weights) {
    && 0.0 <= w.urgency && 0.0 <= w.importance && 0.0 <= w.effort && 0.0 <= w.dependencies
    && w.urgency + w.importance + w.effort + w.dependencies == 1.0
  }

  /**
   * `_get_weights`: custom weights, when given and non-empty, replace the
   * table; otherwise the table entry, or the default weights for an unknown
   * name. `custom` is None both when no weights are given and for `{}`.
   */
  function GetWeights(strategy: string, custom: Option<Weights>): (w: Weights)
    ensures custom.Some? ==> w == custom.value
    ensures custom.None? ==> BuiltIn(w) && Convex(w)
    ensures custom.None? && StrategyTable(strategy).None? ==> w == DefaultWeights
    ensures custom.None? && StrategyTable(strategy).Some? ==> Some(w) == StrategyTable(strategy)
  {
    if custom.Some? then custom.value
    else
      match StrategyTable(strategy)
      case Some(w) => w
      case None => DefaultWeights
  }

  /**
   * The table entries are exactly the built-in weights, `smart_balance`
   * being the default, and each weighs the components convexly.
   */
  lemma BuiltInWeightsConvex(w: Weights)
    ensures BuiltIn(w) <==> exists name :: StrategyTable(name) == Some(w)
    ensures BuiltIn(w) ==> Convex(w)
  {
    if BuiltIn(w) {
      var name :=
        if w == DefaultWeights then "smart_balance"
        else if w == FastestWins then "fastest_wins"
        else if w == HighImpact then "high_impact"
        else "deadline_driven";
      assert StrategyTable(name) == Some(w);
    }
  }

  /** The weighted sum of `calculate_score`, before rounding. */
  function WeightedTotal(w: Weights, b: Breakdown): real {
    b.urgency * w.urgency + b.importance * w.importance
    + b.effort * w.effort + b.dependencies * w.dependencies
  }

  /**
   * Under a built-in strategy the total lies between the smallest and the
   * largest component score; in particular it stays within 0..100.
   */
  lemma BuiltInTotalBetweenComponents(w: Weights, b: Breakdown, lo: real, hi: real)
    requires BuiltIn(w)
    requires lo <= b.urgency <= hi && lo <= b.importance <= hi
    requires lo <= b.effort <= hi && lo <= b.dependencies <= hi
    ensures lo <= WeightedTotal(w, b) <= hi
  {
  }

  /**
   * Under a built-in strategy, moving every component by at most `eps`
   * moves the total by at most `eps`.
   */
  lemma BuiltInTotalNear(w: Weights, a: Breakdown, b: Breakdown, eps: real)
    requires BuiltIn(w)
    requires -eps <= a.urgency - b.urgency <= eps && -eps <= a.importance - b.importance <= eps
    requires -eps <= a.effort - b.effort <= eps && -eps <= a.dependencies - b.dependencies <= eps
    ensures -eps <= WeightedTotal(w, a) - WeightedTotal(w, b) <= eps
  {
  }
}

=== FILE: task_model.dfy ===
/**
 * A task as the scorer sees it: one entry of the caller's list of task
 * dictionaries. The due date is already reduced to a whole number of days
 * from today (negative when overdue).
 */
module TaskModel {
  import opened Wrappers

  /** A dictionary entry: absent, present but not a number, or a number. */
  datatype Field<T> = Missing | Invalid | Given(value: T)

  /**
   * `id` is None when the dictionary has no 'id' key; `due` is None when the
   * due date is absent or cannot be parsed as a date.
   */
  datatype Task = Task(
    id: Option<int>,
    title: string,
    due: Option<int>,
    hours: Field<real>,
    importance: Field<real>,
    dependencies: seq<int>)

  /**
   * `task.get(key, default)` followed by the scorer's "is it a number" test:
   * an absent key reads as the default, a non-number as no number at all.
   */
  function NumberOr(f: Field<real>, default: real): Option<real> {
    match f
    case Missing => Some(default)
    case Invalid => None
    case Given(v) => Some(v)
  }
}

=== FILE: task_scorer.dfy ===
/**
 * `TaskScorer`: a scoring strategy's weights applied to the component scores
 * of each task (`calculate_score`), the scoring and stable ordering of a
 * whole list (`score_tasks`) and the ranked top of that ordering
 * (`get_top_suggestions`).
 */
module TaskScorer {
  import opened Wrappers
  import opened FloatOps
  import opened Text
  import opened TaskModel
  import opened ComponentScores
  import opened Strategies
  import opened Explanation
  import opened CycleDetection
  import opened StableSort

  /** A scorer: its strategy name, the weights it settled on, and the float functions it uses. */
  datatype Scorer = Scorer(strategy: string, weights: Weights, ops: Ops)

  /** `TaskScorer(strategy, custom_weights)`. */
  function NewScorer(strategy: string, custom: Option<Weights>, ops: Ops): (sc: Scorer)
    ensures sc.strategy == strategy && sc.ops == ops
    ensures custom.Some? ==> sc.weights == custom.value
    ensures custom.None? ==> BuiltIn(sc.weights) && Convex(sc.weights)
  {
    Scorer(strategy, GetWeights(strategy, custom), ops)
  }

  /** What `calculate_score` returns: the total, the components and the explanation, all rounded but the last. */
  datatype ScoreData = ScoreData(score: real, components: Breakdown, explanation: string)

  /** The fallbacks of `task.get('importance', 5)` and `task.get('estimated_hours', 1)`. */
  const DefaultImportance: real := 5.0
  const DefaultHours: real := 1.0

  /** The four component scores of `task` against the task list `others`, before rounding. */
  function Components(ops: Ops, task: Task, others: seq<Task>): (b: Breakdown)
    requires Sound(ops)
    ensures 10.0 <= b.urgency <= 100.0 && 0.0 <= b.importance <= 100.0
    ensures 10.0 <= b.effort <= 100.0 && 30.0 <= b.dependencies <= 100.0
    ensures task.due.None? ==> b.urgency == DefaultScore
    ensures task.importance.Invalid? ==> b.importance == DefaultScore
    ensures task.importance.Missing? ==> b.importance == ImportanceScore(ops, Some(DefaultImportance))
    ensures task.hours.Missing? ==> b.effort == 95.0
    ensures task.hours.Invalid? ==> b.effort == DefaultScore
    ensures b.dependencies > 30.0 <==> exists i :: 0 <= i < |others| && Blocks(task.id, others[i])
  {
    BlockedByNone(task.id, others);
    Breakdown(
      UrgencyScore(ops, task.due),
      ImportanceScore(ops, NumberOr(task.importance, DefaultImportance)),
      EffortScore(ops, NumberOr(task.hours, DefaultHours)),
      DependencyScore(task.id, others))
  }

  /** `round(x, 2)` of every component. */
  function RoundEach(ops: Ops, b: Breakdown): Breakdown {
    Breakdown(ops.round2(b.urgency), ops.round2(b.importance), ops.round2(b.effort), ops.round2(b.dependencies))
  }

  /** The task list `calculate_score` counts blockers in: the task alone when none is given. */
  function Others(task: Task, all: Option<seq<Task>>): seq<Task> {
    if all.None? then [task] else all.value
  }

  /**
   * `calculate_score`: the weighted total of the components, with the total
   * and the components rounded to two decimals (see `ScoreNearTotal`).
   * Under built-in weights the total stays within 0..100. The explanation is
   * drawn from the unrounded components.
   */
  function CalculateScore(sc: Scorer, task: Task, all: Option<seq<Task>>): (d: ScoreData)
    requires Sound(sc.ops)
    ensures 10.0 <= d.components.urgency <= 100.0 && 0.0 <= d.components.importance <= 100.0
    ensures 10.0 <= d.components.effort <= 100.0 && 30.0 <= d.components.dependencies <= 100.0
    ensures BuiltIn(sc.weights) ==> 0.0 <= d.score <= 100.0
    ensures task.due.None? ==> d.components.urgency == DefaultScore
    ensures task.importance.Invalid? ==> d.components.importance == DefaultScore
    ensures task.hours.Missing? ==> d.components.effort == 95.0
    ensures task.hours.Invalid? ==> d.components.effort == DefaultScore
    ensures all.None? ==>
              (d.components.dependencies > 30.0 <==> task.id.Some? && task.id.value in task.dependencies)
    ensures |d.explanation| > 0
    ensures d.explanation == Balanced <==> !AnyReason(sc.strategy, Components(sc.ops, task, Others(task, all)))
  {
    var raw := Components(sc.ops, task, Others(task, all));
    var total := WeightedTotal(sc.weights, raw);
    assert BuiltIn(sc.weights) ==> 0.0 <= sc.ops.round2(total) <= 100.0 by {
      if BuiltIn(sc.weights) {
        BuiltInTotalBetweenComponents(sc.weights, raw, 0.0, 100.0);
        RoundBetween(sc.ops, total, 0.0, 100.0);
      }
    }
    RoundBetween(sc.ops, raw.urgency, 10.0, 100.0);
    RoundBetween(sc.ops, raw.importance, 0.0, 100.0);
    RoundBetween(sc.ops, raw.effort, 10.0, 100.0);
    RoundBetween(sc.ops, raw.dependencies, 30.0, 100.0);
    assert all.None? ==> Others(task, all) == [task] && [task][0] == task;
    ScoreData(sc.ops.round2(total), RoundEach(sc.ops, raw), Explain(sc.strategy, task.due, raw))
  }

  /**
   * The reported total and components are the unrounded ones to within half
   * a hundredth; under built-in weights the total agrees with the weighted
   * sum of the reported components to within a hundredth.
   */
  lemma ScoreNearTotal(sc: Scorer, task: Task, all: Option<seq<Task>>)
    requires Sound(sc.ops)
    ensures var d, raw := CalculateScore(sc, task, all), Components(sc.ops, task, Others(task, all));
      && -0.005 <= d.score - WeightedTotal(sc.weights, raw) <= 0.005
      && -0.005 <= d.components.urgency - raw.urgency <= 0.005
      && -0.005 <= d.components.importance - raw.importance <= 0.005
      && -0.005 <= d.components.effort - raw.effort <= 0.005
      && -0.005 <= d.components.dependencies - raw.dependencies <= 0.005
      && (BuiltIn(sc.weights) ==> -0.01 <= d.score - WeightedTotal(sc.weights, d.components) <= 0.01)
  {
    var d, raw := CalculateScore(sc, task, all), Components(sc.ops, task, Others(task, all));
    if BuiltIn(sc.weights) {
      BuiltInTotalNear(sc.weights, raw, d.components, 0.005);
    }
  }

  /** One entry of `score_tasks`' result: the task with its score, components, explanation and warning. */
  datatype ScoredTask = ScoredTask(
    task: Task,
    priority: real,
    components: Breakdown,
    explanation: string,
    warning: bool)

  function Priority(s: ScoredTask): real {
    s.priority
  }

  /** `score_tasks`' first loop: a task without an 'id' key takes its position. */
  function AssignIds(tasks: seq<Task>): (r: seq<Task>)
    ensures |r| == |tasks|
    ensures forall i :: 0 <= i < |r| ==> r[i].id.Some? && r[i].(id := tasks[i].id) == tasks[i]
    ensures forall i :: 0 <= i < |r| ==> tasks[i].id.Some? ==> r[i].id == tasks[i].id
    ensures forall i :: 0 <= i < |r| ==> tasks[i].id.None? ==> r[i].id == Some(i)
  {
    seq(|tasks|, i requires 0 <= i < |tasks| =>
      if tasks[i].id.None? then tasks[i].(id := Some(i)) else tasks[i])
  }

  /** One task of the list, scored against the whole list and flagged when its id lies on a cycle. */
  function ScoreOne(sc: Scorer, t: Task, all: seq<Task>, circular: set<int>): (s: ScoredTask)
    requires Sound(sc.ops) && t.id.Some?
    ensures s.task == t
    ensures s.warning <==> t.id.value in circular
    ensures s.priority == CalculateScore(sc, t, Some(all)).score
    ensures s.components == CalculateScore(sc, t, Some(all)).components
    ensures s.explanation == CalculateScore(sc, t, Some(all)).explanation
  {
    var d := CalculateScore(sc, t, Some(all));
    ScoredTask(t, d.score, d.components, d.explanation, t.id.value in circular)
  }

  /** The scoring loop of `score_tasks`: every task of `all` scored against `all`, in order. */
  function ScoreList(sc: Scorer, all: seq<Task>, circular: set<int>): (r: seq<ScoredTask>)
    requires Sound(sc.ops) && forall j :: 0 <= j < |all| ==> all[j].id.Some?
    ensures |r| == |all|
    ensures forall i {:trigger r[i]} :: 0 <= i < |r| ==> r[i].task == all[i]
    ensures forall i {:trigger r[i]} :: 0 <= i < |r| ==> (r[i].warning <==> all[i].id.value in circular)
    ensures forall i {:trigger r[i]} :: 0 <= i < |r| ==> r[i].priority == CalculateScore(sc, all[i], Some(all)).score
    ensures forall i {:trigger r[i]} :: 0 <= i < |r| ==>
              r[i].components == CalculateScore(sc, all[i], Some(all)).components
              && r[i].explanation == CalculateScore(sc, all[i], Some(all)).explanation
  {
    seq(|all|, i requires 0 <= i < |all| => ScoreOne(sc, all[i], all, circular))
  }

  /** `scored_tasks` before sorting: every task scored, in input order. */
  function ScoreAll(sc: Scorer, tasks: seq<Task>): (r: seq<ScoredTask>)
    requires Sound(sc.ops)
    ensures |r| == |tasks|
    ensures forall i {:trigger r[i]} :: 0 <= i < |r| ==> r[i].task == AssignIds(tasks)[i]
    ensures forall i {:trigger r[i]} :: 0 <= i < |r| ==>
              r[i].task.id.Some? && (r[i].warning <==> r[i].task.id.value in CycleSet(AssignIds(tasks)))
    ensures forall i {:trigger r[i]} :: 0 <= i < |r| ==>
              r[i].priority == CalculateScore(sc, r[i].task, Some(AssignIds(tasks))).score
    ensures forall i {:trigger r[i]} :: 0 <= i < |r| ==>
              r[i].components == CalculateScore(sc, r[i].task, Some(AssignIds(tasks))).components
              && r[i].explanation == CalculateScore(sc, r[i].task, Some(AssignIds(tasks))).explanation
  {
    var all := AssignIds(tasks);
    ScoreList(sc, all, CycleSet(all))
  }

  /**
   * `score_tasks`: every task scored and flagged, then stably sorted by
   * priority, highest first. The cycle flags come from the detector with
   * its recursion stack unwound, so no task list makes this raise.
   */
  function ScoreTasks(sc: Scorer, tasks: seq<Task>): (r: seq<ScoredTask>)
    requires Sound(sc.ops)
    ensures |r| == |tasks|
    ensures multiset(r) == multiset(ScoreAll(sc, tasks))
    ensures SortedDesc(r, Priority)
    ensures SameKeyOrder(ScoreAll(sc, tasks), r, Priority)
  {
    SortDesc(ScoreAll(sc, tasks), Priority)
  }

  /**
   * Each entry of `score_tasks`' result is one of the tasks, with the score,
   * components and explanation `calculate_score` gives it against the whole
   * list, and flagged exactly when its id is on a cycle.
   */
  lemma ScoreTasksEntry(sc: Scorer, tasks: seq<Task>, i: int)
    requires Sound(sc.ops) && 0 <= i < |tasks|
    ensures var e, all := ScoreTasks(sc, tasks)[i], AssignIds(tasks);
      var d := CalculateScore(sc, e.task, Some(all));
      && (exists j :: 0 <= j < |all| && e.task == all[j])
      && e.task.id.Some? && (e.warning <==> e.task.id.value in CycleSet(all))
      && e.priority == d.score && e.components == d.components && e.explanation == d.explanation
  {
    var j := SortedEntryFrom(ScoreAll(sc, tasks), Priority, i);
  }

  /**
   * `score_tasks` as written: the detector of `detect_circular_dependencies`
   * may raise, and then so does `score_tasks`; otherwise it returns the
   * scored, sorted list.
   */
  function ScoreTasksAsWritten(sc: Scorer, tasks: seq<Task>): (r: Result<seq<ScoredTask>, CycleError>)
    requires Sound(sc.ops)
    ensures r.Failure? <==> DetectCircularDependencies(AssignIds(tasks)).Failure?
    ensures r.Success? ==> r.value == ScoreTasks(sc, tasks)
  {
    var all := AssignIds(tasks);
    match DetectCircularDependencies(all)
    case Failure(e) => Failure(e)
    case Success(circular) => Success(SortDesc(ScoreList(sc, all, circular), Priority))
  }

  /** The length of `xs[:count]` for a list of length `n`. */
  function SliceLength(n: nat, count: int): (k: nat)
    ensures k <= n
    ensures count >= 0 ==> k == if count < n then count else n
    ensures count < 0 ==> k == if n + count > 0 then n + count else 0
  {
    if count >= 0 then (if count < n then count else n)
    else if n + count > 0 then n + count else 0
  }

  /** One suggestion: the scored task, its rank from 1, and the ranked explanation. */
  datatype Suggestion = Suggestion(item: ScoredTask, rank: nat, reason: string)

  const RankPrefix: string := "Rank #"
  const RankSeparator: string := ": "

  function RankReason(rank: nat, explanation: string): string {
    RankPrefix + NatToString(rank) + RankSeparator + explanation
  }

  /** The numbering loop of `get_top_suggestions`, counting from `first`. */
  function Number(items: seq<ScoredTask>, first: nat): (r: seq<Suggestion>)
    ensures |r| == |items|
    ensures forall i :: 0 <= i < |r| ==> r[i].item == items[i] && r[i].rank == first + i
    ensures forall i :: 0 <= i < |r| ==> r[i].reason == RankReason(r[i].rank, r[i].item.explanation)
  {
    if items == [] then []
    else [Suggestion(items[0], first, RankReason(first, items[0].explanation))] + Number(items[1..], first + 1)
  }

  /** `scored[:count]`, numbered from 1. */
  function Top(scored: seq<ScoredTask>, count: int): (r: seq<Suggestion>)
    ensures |r| == SliceLength(|scored|, count)
    ensures forall i :: 0 <= i < |r| ==> r[i].item == scored[i] && r[i].rank == i + 1
    ensures forall i :: 0 <= i < |r| ==> r[i].reason == RankReason(r[i].rank, r[i].item.explanation)
  {
    var top := scored[..SliceLength(|scored|, count)];
    assert forall i :: 0 <= i < |top| ==> top[i] == scored[i];
    Number(top, 1)
  }

  /**
   * `get_top_suggestions`: the first `count` entries of `score_tasks`, in
   * order, numbered from 1 and with the rank prefixed to the explanation.
   */
  function GetTopSuggestions(sc: Scorer, tasks: seq<Task>, count: int): (r: seq<Suggestion>)
    requires Sound(sc.ops)
    ensures |r| == SliceLength(|tasks|, count)
    ensures forall i :: 0 <= i < |r| ==> r[i].item == ScoreTasks(sc, tasks)[i] && r[i].rank == i + 1
    ensures forall i :: 0 <= i < |r| ==> r[i].reason == RankReason(r[i].rank, r[i].item.explanation)
  {
    Top(ScoreTasks(sc, tasks), count)
  }

  /** `get_top_suggestions` as written: it raises exactly when `score_tasks` does. */
  function GetTopSuggestionsAsWritten(sc: Scorer, tasks: seq<Task>, count: int): (r: Result<seq<Suggestion>, CycleError>)
    requires Sound(sc.ops)
    ensures r.Failure? <==> ScoreTasksAsWritten(sc, tasks).Failure?
    ensures r.Success? ==> r.value == GetTopSuggestions(sc, tasks, count)
  {
    match ScoreTasksAsWritten(sc, tasks)
    case Failure(e) => Failure(e)
    case Success(scored) => Success(Top(scored, count))
  }

  /**
   * Each suggestion's reason is "Rank #n: " followed by the explanation
   * `calculate_score` gives its task against the whole list.
   */
  lemma SuggestionExplained(sc: Scorer, tasks: seq<Task>, count: int, i: int)
    requires Sound(sc.ops) && 0 <= i < |GetTopSuggestions(sc, tasks, count)|
    ensures var s := GetTopSuggestions(sc, tasks, count)[i];
      s.reason == RankReason(i + 1, CalculateScore(sc, s.item.task, Some(AssignIds(tasks))).explanation)
  {
    ScoreTasksEntry(sc, tasks, i);
  }

  /** No task left out of the suggestions has a higher priority than one in them. */
  lemma SuggestionsDominate(sc: Scorer, tasks: seq<Task>, count: int, i: int, j: int)
    requires Sound(sc.ops)
    requires 0 <= i < |GetTopSuggestions(sc, tasks, count)| <= j < |tasks|
    ensures GetTopSuggestions(sc, tasks, count)[i].item.priority >= ScoreTasks(sc, tasks)[j].priority
  {
    var scored := ScoreTasks(sc, tasks);
    assert Priority(scored[i]) >= Priority(scored[j]);
  }

  /**
   * The reason reads back: it is "Rank #", the decimal digits of the rank,
   * ": " and the task's explanation.
   */
  lemma {:induction false} RankReasonRoundTrip(rank: nat, explanation: string)
    ensures var s, k := RankReason(rank, explanation), |NatToString(rank)|;
      && s[..6] == RankPrefix
      && AllDigits(s[6..6 + k]) && DigitsValue(s[6..6 + k]) == rank
      && s[6 + k..8 + k] == RankSeparator
      && s[8 + k..] == explanation
  {
    NatToStringRoundTrip(rank);
    var digits := NatToString(rank);
    var s := RankReason(rank, explanation);
    var k := |digits|;
    assert s == RankPrefix + digits + RankSeparator + explanation;
    assert s[6..6 + k] == digits;
  }

  /**
   * Under `fastest_wins` a task under an hour outranks one over 16 hours
   * due the same day, whatever their importance and dependencies.
   */
  lemma FastestWinsPrefersQuickTask(sc: Scorer, quick: Task, slow: Task, all: Option<seq<Task>>)
    requires Sound(sc.ops) && sc.weights == FastestWins
    requires quick.due == slow.due
    requires quick.hours.Given? && 0.0 < quick.hours.value < 1.0
    requires slow.hours.Given? && slow.hours.value > 16.0
    ensures CalculateScore(sc, quick, all).score > CalculateScore(sc, slow, all).score
  {
    ScoreNearTotal(sc, quick, all);
    ScoreNearTotal(sc, slow, all);
  }

  /**
   * Under `high_impact` a task rated 10 outranks one rated 3 or less,
   * whatever their due dates, effort and dependencies.
   */
  lemma HighImpactPrefersImportance(sc: Scorer, high: Task, low: Task, all: Option<seq<Task>>)
    requires Sound(sc.ops) && sc.weights == HighImpact
    requires high.importance == Given(10.0)
    requires low.importance.Given? && 1.0 <= low.importance.value <= 3.0
    ensures CalculateScore(sc, high, all).score > CalculateScore(sc, low, all).score
  {
    ImportanceLowRatings(sc.ops, low.importance.value);
    ScoreNearTotal(sc, high, all);
    ScoreNearTotal(sc, low, all);
  }

  /**
   * Under `deadline_driven` an overdue task outranks one due in more than
   * a month, whatever their importance, effort and dependencies.
   */
  lemma DeadlineDrivenPrefersOverdue(sc: Scorer, late: Task, far: Task, all: Option<seq<Task>>)
    requires Sound(sc.ops) && sc.weights == DeadlineDriven
    requires late.due.Some? && late.due.value < 0
    requires far.due.Some? && far.due.value > 30
    ensures CalculateScore(sc, late, all).score > CalculateScore(sc, far, all).score
  {
    ScoreNearTotal(sc, late, all);
    ScoreNearTotal(sc, far, all);
  }

  /** Of two tasks, the one with the strictly higher score is listed first; on a tie the order is kept. */
  lemma TwoTasksOrder(sc: Scorer, tasks: seq<Task>)
    requires Sound(sc.ops) && |tasks| == 2
    ensures var s, r := ScoreAll(sc, tasks), ScoreTasks(sc, tasks);
      && (s[1].priority > s[0].priority ==> r == [s[1], s[0]])
      && (s[0].priority >= s[1].priority ==> r == s)
  {
    SortTwo(ScoreAll(sc, tasks), Priority);
  }

  /**
   * Under `fastest_wins`, of a task under an hour and one over 16 hours due
   * the same day, the quick one is listed first in either input order.
   */
  lemma FastestWinsListsQuickFirst(sc: Scorer, quick: Task, slow: Task, quickFirst: bool)
    requires Sound(sc.ops) && sc.weights == FastestWins
    requires quick.due == slow.due
    requires quick.hours.Given? && 0.0 < quick.hours.value < 1.0
    requires slow.hours.Given? && slow.hours.value > 16.0
    ensures ScoreTasks(sc, if quickFirst then [quick, slow] else [slow, quick])[0].task.hours == quick.hours
  {
    var tasks := if quickFirst then [quick, slow] else [slow, quick];
    var ids := AssignIds(tasks);
    var q, l := if quickFirst then 0 else 1, if quickFirst then 1 else 0;
    TwoTasksOrder(sc, tasks);
    FastestWinsPrefersQuickTask(sc, ids[q], ids[l], Some(ids));
  }

  /**
   * Under `high_impact`, of a task rated 10 and one rated 3 or less, the
   * first is listed first in either input order.
   */
  lemma HighImpactListsImportantFirst(sc: Scorer, high: Task, low: Task, highFirst: bool)
    requires Sound(sc.ops) && sc.weights == HighImpact
    requires high.importance == Given(10.0)
    requires low.importance.Given? && 1.0 <= low.importance.value <= 3.0
    ensures ScoreTasks(sc, if highFirst then [high, low] else [low, high])[0].task.importance == Given(10.0)
  {
    var tasks := if highFirst then [high, low] else [low, high];
    var ids := AssignIds(tasks);
    var h, l := if highFirst then 0 else 1, if highFirst then 1 else 0;
    TwoTasksOrder(sc, tasks);
    HighImpactPrefersImportance(sc, ids[h], ids[l], Some(ids));
  }
}

=== FILE: text.dfy ===
/**
 * The two pieces of string formatting the scorer does: Python's decimal
 * rendering of a non-negative integer (inside f-strings) and `sep.join(parts)`,
 * with `str.split` as the partner that reads a joined string back.
 */
module Text {
  import opened Wrappers

  predicate AllDigits(s: string) {
    forall i :: 0 <= i < |s| ==> '0' <= s[i] <= '9'
  }

  function DigitChar(d: nat): (c: char)
    requires d < 10
    ensures '0' <= c <= '9' && c as int - '0' as int == d
  {
    ('0' as int + d) as char
  }

  /** `str(n)` for a non-negative integer: decimal digits, no leading zero. */
  function NatToString(n: nat): (s: string)
    ensures |s| > 0 && AllDigits(s)
    ensures |s| > 1 ==> s[0] != '0'
    decreases n
  {
    if n < 10 then [DigitChar(n)] else NatToString(n / 10) + [DigitChar(n % 10)]
  }

  /** The number a string of decimal digits denotes (`int(s)`). */
  function DigitsValue(s: string): nat
    requires AllDigits(s)
    decreases |s|
  {
    if s == [] then 0
    else 10 * DigitsValue(s[..|s| - 1]) + (s[|s| - 1] as int - '0' as int)
  }

  /** Rendering a number and reading it back gives the number. */
  lemma {:induction false} NatToStringRoundTrip(n: nat)
    ensures DigitsValue(NatToString(n)) == n
    decreases n
  {
    if n >= 10 {
      NatToStringRoundTrip(n / 10);
      var s := NatToString(n / 10);
      assert (s + [DigitChar(n % 10)])[..|s|] == s;
    }
  }

  /** `sep.join(parts)`. */
  function Join(parts: seq<string>, sep: string): string
    decreases |parts|
  {
    if |parts| == 0 then ""
    else if |parts| == 1 then parts[0]
    else parts[0] + sep + Join(parts[1..], sep)
  }

  /** The joined string starts with the first part. */
  lemma JoinStartsWithFirst(parts: seq<string>, sep: string)
    requires |parts| > 0
    ensures parts[0] <= Join(parts, sep)
  {
  }

  /** `sep` occurs in `s` at position `i`. */
  predicate OccursAt(s: string, sep: string, i: nat) {
    i + |sep| <= |s| && s[i..i + |sep|] == sep
  }

  /** `s.find(sep)`: where `sep` first occurs in `s`, if it does. */
  function Find(s: string, sep: string): (r: Option<nat>)
    requires |sep| > 0
    ensures r.Some? ==> OccursAt(s, sep, r.value)
    ensures forall i: nat :: OccursAt(s, sep, i) ==> r.Some? && r.value <= i
    decreases |s|
  {
    if |s| < |sep| then None
    else if s[..|sep|] == sep then Some(0)
    else
      var rest := Find(s[1..], sep);
      forall i: nat | OccursAt(s, sep, i)
        ensures i >= 1 && OccursAt(s[1..], sep, i - 1)
      {
        assert s[1..][i - 1..i - 1 + |sep|] == s[i..i + |sep|];
      }
      match rest
      case None => None
      case Some(i) =>
        assert s[1..][i..i + |sep|] == s[i + 1..i + 1 + |sep|];
        Some(i + 1)
  }

  /** `s.split(sep)`: the pieces between the occurrences of `sep`, from left to right. */
  function Split(s: string, sep: string): (r: seq<string>)
    requires |sep| > 0
    ensures |r| > 0
    decreases |s|
  {
    match Find(s, sep)
    case None => [s]
    case Some(i) => [s[..i]] + Split(s[i + |sep|..], sep)
  }

  /**
   * A string lacking the character `sep[j]`, where that is its first
   * occurrence in `sep`, holds no copy of `sep`, and in `p + sep + rest`
   * the first copy is the one right after `p`.
   */
  lemma {:induction false} FindAfterPart(p: string, sep: string, rest: string, j: nat)
    requires j < |sep| && sep[j] !in sep[..j] && sep[j] !in p
    ensures Find(p + sep + rest, sep) == Some(|p|)
    decreases |p|
  {
    var s := p + sep + rest;
    if p == [] {
      assert s[..|sep|] == sep;
    } else {
      assert s[j] != sep[j] by {
        if j < |p| {
          assert s[j] == p[j];
        } else {
          assert s[j] == sep[j - |p|] && sep[j - |p|] == sep[..j][j - |p|];
        }
      }
      assert s[..|sep|] != sep by {
        assert s[..|sep|][j] == s[j];
      }
      assert s[1..] == p[1..] + sep + rest;
      FindAfterPart(p[1..], sep, rest, j);
    }
  }

  lemma {:induction false} FindNone(s: string, sep: string, j: nat)
    requires j < |sep| && sep[j] !in s
    ensures Find(s, sep) == None
    decreases |s|
  {
    if |sep| <= |s| {
      assert s[..|sep|] != sep by {
        assert s[..|sep|][j] == s[j];
      }
      assert sep[j] !in s[1..];
      FindNone(s[1..], sep, j);
    }
  }

  /**
   * Splitting a joined string on its separator gives the parts back, when
   * no part contains a character of the separator (its first occurrence
   * there, at `j`).
   */
  lemma {:induction false} SplitJoin(parts: seq<string>, sep: string, j: nat)
    requires |parts| > 0 && j < |sep| && sep[j] !in sep[..j]
    requires forall k :: 0 <= k < |parts| ==> sep[j] !in parts[k]
    ensures Split(Join(parts, sep), sep) == parts
    decreases |parts|
  {
    if |parts| == 1 {
      FindNone(parts[0], sep, j);
    } else {
      var p, rest := parts[0], Join(parts[1..], sep);
      var s := p + sep + rest;
      assert Join(parts, sep) == s;
      FindAfterPart(p, sep, rest, j);
      assert s[..|p|] == p;
      assert s[|p| + |sep|..] == rest;
      SplitJoin(parts[1..], sep, j);
      assert parts == [p] + parts[1..];
    }
  }
}

=== FILE: wrappers.dfy ===
/** Optional values and results with an error, as used throughout the model. */
module Wrappers {

  /** A value that may be absent. */
  datatype Option<+T> = None | Some(value: T)

  /** Either a value or the error the source raises instead. */
  datatype Result<+R, +E> = Success(value: R) | Failure(error: E)
}
